=== FILE: README.md ===
# Inline comments, autocomplete and editor helpers of agent-doc, in Dafny

This project models the core of the agent-doc rich-text editor (a Next.js
app built on the Novel/Tiptap editor) as pure Dafny functions over
immutable data, and proves properties of them. It covers these parts:

- **CommentMark** (`comment.ts`). The inline `comment` mark: its
  `commentId` attribute with a null default; the `setComment`,
  `toggleComment` and `unsetComment` commands; `addComment` /
  `removeComment`; and `onSelectionUpdate`, which reports the comment
  under the cursor. The document is a sequence of spans, each carrying its
  marks and whether it begins a textblock. Positions are the boundaries
  between spans. As `$from.marks()` does, a collapsed cursor reads the
  marks of the span before it, except at the start of a textblock, where it
  reads the span after it.
- **CommentList** (`advanced-editor.tsx`). The page's list of
  `{id, content, createdAt}` records: append, remove by id, update by id,
  and `removeCommentsWithoutMarks`. That last one keeps only the records
  whose id is still marked in the document.
- **CommentSelector** (`comment-selector.tsx`). The bubble-menu button.
  It removes the active comment mark or adds a new one, and reports to
  exactly one of the page's two callbacks.
- **EditorSession** (`advanced-editor.tsx`). Loading the list at mount,
  the "Saved"/"Unsaved" status, reconciliation on every editor update,
  and the two debounced saves into local storage.
- **Autocomplete** (`editor-provider.tsx`). The "++" trigger, insertion
  of streamed completion chunks, the selection made on finish, Escape /
  Cmd+Z / mouse-down while loading, and one-shot hydration.
- **Collaboration** (`collaboration.ts`). The memoised two-level provider
  registry and the two extensions configured on it.
- **NodeSelector** (`node-selector.tsx`). The block-type menu: the last
  active item names the trigger, or "Multiple".
- **HorizontalRule** (`HorizontalRules.tsx`). The `---` / `—-` / `___ ` /
  `*** ` input rule. Its pattern is run as an automaton.
- **DateLabel** (`utils.ts`). `formatDate`'s today / yesterday / this
  year / older labels over Gregorian calendar days.
- **GenerateRoute** (`route.ts`). The `/api/generate` handler: the key
  check, the rate limit with its headers, prompt selection, and the
  completion request.

`Base` holds the shared `Option`, JavaScript truthiness, `filter`,
`find`, and sequence prefix/suffix/subsequence.

The code does not check comment ids for uniqueness, and does not map
malformed storage to an empty list; the model follows the code:

- Comment ids are not checked for uniqueness. `CommentList.Add` appends
  a second record with an existing id, and `CommentList.AddCountsOneMore`
  proves it. Uniqueness is proved only as an invariant that
  `CommentList.AddKeepsDistinct` preserves when the id is fresh.
- Loading treats only an absent (or empty) stored value as "no
  comments". Stored text that is not valid JSON makes `JSON.parse` throw
  at mount. It is not mapped to an empty list, so
  `EditorSession.LoadComments` models only well-formed storage.

## Model

| member | source | states |
|---|---|---|
| CommentMark.CommentAttr | packages/headless/src/extensions/comment.ts:85 | the comment attribute under the selection is undefined when no queried span has a comment mark |
| CommentMark.OnSelectionUpdate | packages/headless/src/extensions/comment.ts:56-61 | the activation callback is skipped exactly when no mark of `$from.marks()` is a comment mark; otherwise it gets the id of the first comment mark there. `$from.marks()` is the span before the cursor, or the span after it when the cursor starts a textblock |
| CommentMark.BlockStartReadsNextSpan | packages/headless/src/extensions/comment.ts:56-61 | at the start of a second paragraph the cursor reads that paragraph's first span, not the commented span ending the paragraph before; the same boundary inside one paragraph reads the commented span |
| CommentMark.HandleActivation | packages/headless/src/extensions/comment.ts:31-36 | the default handler changes nothing; the page's handler takes the reported id as the active comment |
| CommentMark.SetComment | packages/headless/src/extensions/comment.ts:65-69 | each covered span ends up with exactly one comment mark, carrying the id; its text and other marks are kept; spans outside the selection and the selection itself are unchanged |
| CommentMark.UnsetComment | packages/headless/src/extensions/comment.ts:75-79 | covered spans lose every comment mark and keep their text and other marks; nothing else changes |
| CommentMark.MergedId | packages/headless/src/extensions/comment.ts:38-44 | with attributes, their id; without, the id of the comment mark the span already carries, or the null default when it has none |
| CommentMark.SetCommentAttrs | packages/headless/src/extensions/comment.ts:65-69 | with an id it is setting that id; without, each covered span gets exactly one comment mark with the merged id, keeping its text and other marks; nothing outside the selection changes |
| CommentMark.ToggleComment | packages/headless/src/extensions/comment.ts:70-74 | unsets when a comment mark matching the attributes is active over the selection, otherwise sets one, merging with an existing comment mark when no attributes are given |
| CommentMark.ActiveWithoutAttrs | apps/web/components/tailwind/selectors/comment-selector.tsx:16 | the active test without attributes is the button's `isActive("comment")` |
| CommentMark.RemoveComment | packages/headless/src/extensions/comment.ts:84-89 | with a falsy id under the selection it returns undefined and leaves the document alone; otherwise it unsets the mark and returns that id |
| CommentMark.NewCommentId | packages/headless/src/extensions/comment.ts:92 | the id is "c-" followed by the UUID, and is truthy |
| CommentMark.AddComment | packages/headless/src/extensions/comment.ts:91-95 | sets a comment mark carrying the returned id, which starts with "c-" |
| CommentMark.NewCommentIdInjective | packages/headless/src/extensions/comment.ts:92 | different UUIDs give different ids, and equal ids come from equal UUIDs |
| CommentMark.WithCommentLastMark | packages/headless/src/extensions/comment.ts:65-69 | after setting the mark on a span, the new comment mark is its last mark and its only comment mark |
| CommentMark.SetCommentLastMark | packages/headless/src/extensions/comment.ts:65-69 | a covered span's new comment mark is its last mark and its only comment mark |
| CommentMark.ReadsLastCommentMark | packages/headless/src/extensions/comment.ts:56-61 | a cursor reading a span whose only comment mark is its last mark activates that mark's id |
| CommentMark.CursorReadsSetComment | packages/headless/src/extensions/comment.ts:56-69 | after setting an id, a cursor whose `$from.marks()` reads a covered span activates that id |
| CommentMark.AddThenActive | packages/headless/src/extensions/comment.ts:91-95 | after adding over a non-empty selection, the comment mark is active over the whole selection |
| CommentMark.AddThenAttr | packages/headless/src/extensions/comment.ts:84-95 | after adding over a non-empty selection, the comment attribute reads back as the new id |
| CommentMark.AddThenQuery | packages/headless/src/extensions/comment.ts:56-61 | after adding, the attribute reads back as the new id, and every cursor whose `$from.marks()` reads a span of the commented range activates it |
| CommentMark.AddActivationAtSelection | packages/headless/src/extensions/comment.ts:56-61 | right after adding: when the selection starts a textblock the new id is activated; otherwise activation reads the untouched span before the selection, so it is what it was before the comment, and the callback is not called when that span has no comment |
| CommentMark.DefaultIdIsNull | packages/headless/src/extensions/comment.ts:38-44 | a mark set without attributes over uncommented spans carries the null default, and every cursor whose `$from.marks()` reads a span of the range reports null |
| CommentMark.DefaultKeepsExistingId | packages/headless/src/extensions/comment.ts:65-74 | setting without attributes keeps the id of a comment mark already there, and every cursor whose `$from.marks()` reads that span reports it |
| CommentList.Add | apps/web/components/tailwind/advanced-editor.tsx:86-95 | appends one record with the id, empty content and the current time; earlier records are kept in place |
| CommentList.Remove | apps/web/components/tailwind/advanced-editor.tsx:97-99 | keeps, in order and with their multiplicities, exactly the records whose id differs; an absent id leaves the list unchanged |
| CommentList.Update | apps/web/components/tailwind/advanced-editor.tsx:101-113 | records with the id get the new content; ids, timestamps, positions and all other records are kept |
| CommentList.LiveIds | apps/web/components/tailwind/advanced-editor.tsx:115-124 | an id is collected iff it is non-empty and some span carries a comment mark with that id |
| CommentList.Reconcile | apps/web/components/tailwind/advanced-editor.tsx:125 | keeps, in order and with their multiplicities, exactly the records whose id is live |
| CommentList.RemoveCommentsWithoutMarks | apps/web/components/tailwind/advanced-editor.tsx:115-126 | a record survives iff its id is non-empty and marked somewhere in the document; order and multiplicities are kept |
| CommentList.AddCountsOneMore | apps/web/components/tailwind/advanced-editor.tsx:86-95 | adding never merges: the id's record count grows by one even when the id is already present |
| CommentList.AddKeepsDistinct | apps/web/components/tailwind/advanced-editor.tsx:86-95 | adding keeps ids distinct exactly when the id is new |
| CommentList.OperationsKeepDistinct | apps/web/components/tailwind/advanced-editor.tsx:97-126 | remove, update and reconciliation keep ids distinct |
| CommentList.RemoveAfterAdd | apps/web/components/tailwind/advanced-editor.tsx:86-99 | removing an id just added is removing it from the original, and for a fresh id it gives the original list |
| CommentList.UpdateAbsent | apps/web/components/tailwind/advanced-editor.tsx:101-113 | updating an absent id changes nothing |
| CommentList.UpdateLastWins | apps/web/components/tailwind/advanced-editor.tsx:101-113 | of two updates of one id, the later wins |
| CommentList.UpdateCons | apps/web/components/tailwind/advanced-editor.tsx:101-113 | updating a list is updating its first record, followed by updating the rest |
| CommentList.RemoveAfterUpdate | apps/web/components/tailwind/advanced-editor.tsx:97-113 | removing after updating an id forgets the update |
| CommentList.ReconcileUpdateCommute | apps/web/components/tailwind/advanced-editor.tsx:101-126 | updating and reconciling commute |
| CommentList.ReconcileIdempotent | apps/web/components/tailwind/advanced-editor.tsx:115-126 | reconciling twice against the same ids is reconciling once |
| CommentList.ReconcileAllLive | apps/web/components/tailwind/advanced-editor.tsx:115-126 | when every record is live, reconciliation changes nothing |
| CommentList.EmptyIdNeverLive | apps/web/components/tailwind/advanced-editor.tsx:120 | a record with an empty id never survives reconciliation |
| CommentList.NullMarksKeepNothing | apps/web/components/tailwind/advanced-editor.tsx:118-124 | comment marks with null or empty ids keep no record alive |
| CommentSelector.Toggle | apps/web/components/tailwind/selectors/comment-selector.tsx:15-23 | exactly one callback fires: remove with the removed id when a comment mark is active, otherwise add with the new id |
| CommentSelector.ApplyCallback | apps/web/components/tailwind/advanced-editor.tsx:233 | the add callback appends to the page's list and the remove callback removes by id; an undefined id keeps every record |
| CommentSelector.NullIdRemovePath | apps/web/components/tailwind/selectors/comment-selector.tsx:16-18 | an active comment mark with a null id takes the remove path, yet leaves both the document and the list unchanged |
| CommentSelector.AddSurvivesReconcile | apps/web/components/tailwind/selectors/comment-selector.tsx:19-22 | the record the button adds survives the next reconciliation with the marked document |
| CommentSelector.UnsetAfterSet | packages/headless/src/extensions/comment.ts:65-79 | unsetting right after setting restores spans that had no comment mark |
| CommentSelector.ToggleCommentTwice | packages/headless/src/extensions/comment.ts:70-74 | over a selection without comment marks, the toggle command sets the mark, and a second toggle restores the document |
| CommentSelector.ToggleTwiceRestores | apps/web/components/tailwind/selectors/comment-selector.tsx:15-23 | pressing the button twice restores the document and the list, with the second press removing the id the first one added |
| EditorSession.LoadComments | apps/web/components/tailwind/advanced-editor.tsx:158-160 | the stored list when the key is present, otherwise the empty list |
| EditorSession.Open | apps/web/components/tailwind/advanced-editor.tsx:153-165 | the page opens as "Saved" with the loaded list and a comment save scheduled |
| EditorSession.SetComments | apps/web/components/tailwind/advanced-editor.tsx:163-165 | every change of the list schedules the comment save and leaves the status alone |
| EditorSession.OnAddComment | apps/web/components/tailwind/advanced-editor.tsx:86-95 | the page's list becomes the appended list and a save is scheduled |
| EditorSession.OnRemoveComment | apps/web/components/tailwind/advanced-editor.tsx:97-99 | the page's list loses the id and a save is scheduled |
| EditorSession.OnUpdateComment | apps/web/components/tailwind/advanced-editor.tsx:101-113 | the page's list gets the new content and a save is scheduled |
| EditorSession.OnEditorUpdate | apps/web/components/tailwind/advanced-editor.tsx:194-198 | an edit schedules both saves, marks the page "Unsaved" and reconciles the list with the document |
| EditorSession.FireContentSave | apps/web/components/tailwind/advanced-editor.tsx:139-147 | the content save sets "Saved" and leaves the comments alone |
| EditorSession.FireCommentSave | apps/web/components/tailwind/advanced-editor.tsx:149-151 | the comment save writes the list under "comments" and changes no other key |
| EditorSession.SaveThenLoad | apps/web/components/tailwind/advanced-editor.tsx:149-160 | saving and opening again gives back the same list |
| EditorSession.Step | apps/web/components/tailwind/advanced-editor.tsx:86-198 | only an editor update and the content save touch the status and the content-save timer; only the comment save writes storage; an edit leaves "Unsaved" with the save scheduled; a content save that fires leaves "Saved" |
| EditorSession.UnsavedPersists | apps/web/components/tailwind/advanced-editor.tsx:139-198 | from "Unsaved" with the content save scheduled, any events in which that save does not fire keep both |
| EditorSession.UnsavedUntilSave | apps/web/components/tailwind/advanced-editor.tsx:139-198 | after an edit, any sequence of comment adds, removes, updates, further edits and comment saves leaves the page "Unsaved" with the content save scheduled, and that save makes it "Saved" |
| EditorSession.StatusTracksPreserved | apps/web/components/tailwind/advanced-editor.tsx:139-198 | every event keeps "the page reads Unsaved exactly while a content save is scheduled" |
| EditorSession.StatusTracksContentSave | apps/web/components/tailwind/advanced-editor.tsx:139-198 | from mount on, after any events, the page reads "Unsaved" exactly while a content save is scheduled |
| EditorSession.RepeatedUpdateStable | apps/web/components/tailwind/advanced-editor.tsx:194-198 | a second update with the same document leaves the list as the first did |
| EditorSession.AddUpdateReconcileScenario | apps/web/components/tailwind/advanced-editor.tsx:86-126 | add "c-1", write "hello", reconcile with a marked document: one record with that content remains; a document without marks then empties the list |
| Autocomplete.PrevText | packages/headless/src/components/editor/editor-provider.tsx:189-191 | the text is a suffix of the text before the cursor, of length min(cursor, chars) |
| Autocomplete.DeleteRange | packages/headless/src/components/editor/editor-provider.tsx:193-196 | the range is cut out and the cursor is mapped through the deletion |
| Autocomplete.Insert | packages/headless/src/components/editor/editor-provider.tsx:127 | the text is inserted at the cursor, which moves past it |
| Autocomplete.OnUpdate | packages/headless/src/components/editor/editor-provider.tsx:187-208 | the owner is told about exactly the final editor; while loading, or without "++" before the cursor, nothing changes and nothing is requested; each deletion of "++" re-runs the handler on the shorter editor, and the cursor never moves right |
| Autocomplete.OnUpdateDeletesTriggers | packages/headless/src/components/editor/editor-provider.tsx:187-208 | one request per "++" removed just before the cursor, and nothing else removed; unless loading, no "++" is left before the final cursor; every request is the same prompt read from the final editor |
| Autocomplete.TriggerIsPrevText | packages/headless/src/components/editor/editor-provider.tsx:189-192 | the handler's test on the two characters before the cursor is "++" before the cursor |
| Autocomplete.TriggerStep | packages/headless/src/components/editor/editor-provider.tsx:193-201 | one outer run adds one deleted "++" and one request on top of what the nested run did |
| Autocomplete.PeelTrigger | packages/headless/src/components/editor/editor-provider.tsx:193-196 | deleting one more "++" before the removed run extends that run by one trigger |
| Autocomplete.SingleTrigger | packages/headless/src/components/editor/editor-provider.tsx:187-208 | "++" typed after text not ending in "++" is deleted, one request is made for the (at most 5000) characters before, and the owner sees the text without it |
| Autocomplete.TwoTriggers | packages/headless/src/components/editor/editor-provider.tsx:187-208 | "++++" is deleted in two nested runs, which make two equal requests for the text before it |
| Autocomplete.TriggerKeepsSurroundings | packages/headless/src/components/editor/editor-provider.tsx:187-208 | with "++" before the cursor, at least one request is made, the text before the final cursor and after the original one is kept, and every request reads what precedes the final cursor |
| Autocomplete.TriggerLeavesPrefix | packages/headless/src/components/editor/editor-provider.tsx:187-208 | after "++" typed between `before` and `after`, the cursor sits inside `before`, `after` follows it, and every request reads what precedes the cursor |
| Autocomplete.ChunkStep | packages/headless/src/components/editor/editor-provider.tsx:124-128 | the chunk is the completion's tail past `prev`'s length, empty when the completion is not longer; `prev` becomes the completion |
| Autocomplete.Stream | packages/headless/src/components/editor/editor-provider.tsx:124-128 | after a stream, `prev` is the last completion seen |
| Autocomplete.ChunksRebuildCompletion | packages/headless/src/components/editor/editor-provider.tsx:121-128 | when each completion extends the previous one, `prev` plus the chunks is the final completion |
| Autocomplete.StreamInsertsChunks | packages/headless/src/components/editor/editor-provider.tsx:124-128 | streaming inserts the chunks, in order, at the cursor |
| Autocomplete.NoGrowthNoInsert | packages/headless/src/components/editor/editor-provider.tsx:124-128 | a completion no longer than `prev`, or one seen again, inserts nothing |
| Autocomplete.StreamExtending | packages/headless/src/components/editor/editor-provider.tsx:124-128 | streaming extending completions inserts the final completion minus `prev` at the cursor |
| Autocomplete.FinishSelection | packages/headless/src/components/editor/editor-provider.tsx:107-112 | the selection ends at the cursor and spans the completion's length |
| Autocomplete.FinishSelectsCompletion | packages/headless/src/components/editor/editor-provider.tsx:107-112 | after streaming from an empty `prev`, the finish selection covers exactly the completion text |
| Autocomplete.OnKeyDown | packages/headless/src/components/editor/editor-provider.tsx:133-144 | only Escape and Cmd+Z act; Escape deletes the completion before the cursor; both put "++" back; a deletion starting before the document faults |
| Autocomplete.EscapeUndoesStream | packages/headless/src/components/editor/editor-provider.tsx:121-144 | streaming a completion and then Escape puts "++" back in place of the completion |
| Autocomplete.EscapeRestoresTrigger | packages/headless/src/components/editor/editor-provider.tsx:133-144 | typing "++", streaming a completion, then Escape puts "++" back into the editor the trigger left; when the text before did not end in "++" that is the text and cursor from before |
| Autocomplete.OnMouseDown | packages/headless/src/components/editor/editor-provider.tsx:145-152 | a new request is made iff the user confirms, and it is for the whole text |
| Autocomplete.ClickAfterStream | packages/headless/src/components/editor/editor-provider.tsx:121-152 | a confirmed click after a stream requests the text with the completion inserted at the cursor; an unconfirmed one requests nothing |
| Autocomplete.ClickRequestsWholeText | packages/headless/src/components/editor/editor-provider.tsx:145-152 | after "++" and a partial completion, the first requests held only text before the trigger, while a confirmed click requests the text before the cursor, the completion so far and the text after, without the "++" |
| Autocomplete.HydrateStep | packages/headless/src/components/editor/editor-provider.tsx:167-172 | content is set only when an editor and content exist and hydration has not happened |
| Autocomplete.HydrateAtMostOnce | packages/headless/src/components/editor/editor-provider.tsx:166-172 | over any series of renders, content is set at most once, and exactly once iff some render had both editor and content |
| Collaboration.GetProvider | packages/headless/src/extensions/collaboration.ts:12-37 | returns the stored provider unchanged, or stores a new one named by the document with the env values or "" |
| Collaboration.GetCollaborationExtensions | packages/headless/src/extensions/collaboration.ts:39-53 | two extensions: the shared document of the stored provider, and a cursor on that provider labelled with the user and colour |
| Collaboration.EmptyRegistryValid | packages/headless/src/extensions/collaboration.ts:6-10 | the registry starts out valid: empty, so no provider is misnamed or shared |
| Collaboration.GetProviderKeepsValid | packages/headless/src/extensions/collaboration.ts:12-37 | every lookup keeps every stored provider named by its document and no provider stored under two keys |
| Collaboration.GetProviderMemoises | packages/headless/src/extensions/collaboration.ts:20-22 | a second lookup of the same pair returns the same provider and changes nothing |
| Collaboration.DistinctUsersDistinctProviders | packages/headless/src/extensions/collaboration.ts:24-30 | two users of one document get different providers for the same document |
| NodeSelector.ActiveName | apps/web/app/_components/selectors/node-selector.tsx:96-98 | "Multiple" iff no item is active; otherwise the name of the last active item in menu order |
| NodeSelector.CheckMarks | apps/web/app/_components/selectors/node-selector.tsx:131 | a row shows the check mark iff its name is the trigger's name |
| NodeSelector.Select | apps/web/app/_components/selectors/node-selector.tsx:118-121 | selecting runs the item's command and closes the menu |
| NodeSelector.ClickTrigger | apps/web/app/_components/selectors/node-selector.tsx:105 | clicking the trigger flips the menu |
| NodeSelector.NamesDistinct | apps/web/app/_components/selectors/node-selector.tsx:23-92 | item names are pairwise different |
| NodeSelector.CheckMarkExactlyActive | apps/web/app/_components/selectors/node-selector.tsx:131 | exactly one row is checked when an item is active, none when the trigger reads "Multiple" |
| NodeSelector.TextShownFirstLastActive | apps/web/app/_components/selectors/node-selector.tsx:30-33 | when the trigger reads "Text", the first item is active and no later one is |
| NodeSelector.TextShownOnlyParagraph | apps/web/app/_components/selectors/node-selector.tsx:30-33 | "Text" shows only when a paragraph is active outside both lists and no later item is active |
| NodeSelector.OnlyParagraphShowsText | apps/web/app/_components/selectors/node-selector.tsx:30-33 | a paragraph outside both lists, with no later item active, shows "Text" |
| NodeSelector.TextShownIff | apps/web/app/_components/selectors/node-selector.tsx:30-33 | "Text" shows iff a paragraph is active outside both list kinds and no later item is active |
| NodeSelector.LastMatchWins | apps/web/app/_components/selectors/node-selector.tsx:96 | a paragraph in a code block shows "Code"; one in a quote shows "Quote" |
| NodeSelector.HeadingByLevel | apps/web/app/_components/selectors/node-selector.tsx:40-54 | the active heading level alone picks "Heading 1/2/3", and other levels show "Multiple" |
| HorizontalRule.LongTextDead | apps/web/app/_components/HorizontalRules.tsx:8 | text of five or more characters never matches |
| HorizontalRule.MatchesIffShape | apps/web/app/_components/HorizontalRules.tsx:8 | the pattern matches exactly "---", "—-", and "___" or "***" followed by one whitespace character |
| HorizontalRule.ApplyInputRule | apps/web/app/_components/HorizontalRules.tsx:9-19 | a rule with empty attributes is inserted before the paragraph iff the text up to the cursor matches; the matched text is deleted and all other blocks are kept |
| HorizontalRule.AnchoredExamples | apps/web/app/_components/HorizontalRules.tsx:8 | anchored examples: a fourth dash, a leading letter, two spaces, a missing space or a trailing newline all fail |
| DateLabel.PrevDay | apps/web/lib/utils.ts:11-12 | the previous day is a valid, different day in the same year, except that 1 January goes back to 31 December of the year before |
| DateLabel.PrevNextInverse | apps/web/lib/utils.ts:11-12 | stepping back a day and forward a day undo each other |
| DateLabel.Classify | apps/web/lib/utils.ts:14-16 | today, then yesterday, then same year, then earlier, tried in that order |
| DateLabel.FormatDate | apps/web/lib/utils.ts:18-23 | the label starts with the time, followed by nothing, " yesterday", the month and day, or the month, day and year |
| DateLabel.NewYearsEveIsYesterday | apps/web/lib/utils.ts:15 | on 1 January, 31 December of the year before is labelled "yesterday", without a year |
| DateLabel.YesterdayAcrossMonths | apps/web/lib/utils.ts:11-15 | the last day of the previous month is "yesterday" on the 1st |
| DateLabel.EarlierYearCarriesYear | apps/web/lib/utils.ts:16-23 | other dates in earlier years carry the year |
| GenerateRoute.NatToString | apps/web/app/api/generate/route.ts:50-52 | header values are non-empty digit strings without a leading zero |
| GenerateRoute.ParseRendered | apps/web/app/api/generate/route.ts:50-52 | reading back a rendered header value gives the number |
| GenerateRoute.RenderInjective | apps/web/app/api/generate/route.ts:50-52 | different numbers render differently |
| GenerateRoute.Client | apps/web/app/api/generate/route.ts:17-22 | in production the client uses the default endpoint and the configured key; elsewhere the local server and "ollama" |
| GenerateRoute.Messages | apps/web/app/api/generate/route.ts:60-87 | two messages, the option's system prompt then the user's prompt, exactly for "continue" and "improve" |
| GenerateRoute.Post | apps/web/app/api/generate/route.ts:16-105 | the limiter key carries the caller's IP; the only plain responses are 400 and 429; building the client fails exactly in production without a key |
| GenerateRoute.AbsentKeyFailsFirst | apps/web/app/api/generate/route.ts:17-22 | in production an absent key makes building the client fail before the key check |
| GenerateRoute.MissingKeyFirst | apps/web/app/api/generate/route.ts:24-34 | in production an empty key gives 400 before the limiter and the body are looked at |
| GenerateRoute.LimiterConsultedIff | apps/web/app/api/generate/route.ts:35-44 | the limiter is consulted iff in production with a key and both KV settings, with key "novel_ratelimit_" and the IP |
| GenerateRoute.NonProdNeverRefused | apps/web/app/api/generate/route.ts:17-56 | outside production the client is built and there is no 400, no 429 and no limiter call |
| GenerateRoute.RefusalCarriesFigures | apps/web/app/api/generate/route.ts:46-55 | a refusal is a 429 whose three headers read back as the limiter's limit, remaining and reset |
| GenerateRoute.RefusedIffLimited | apps/web/app/api/generate/route.ts:35-56 | the handler answers 429 exactly when it consulted the limiter and the limiter refused |
| GenerateRoute.CompletionShape | apps/web/app/api/generate/route.ts:58-99 | a completion is streamed with the option's system prompt and the user's prompt; "llama2" iff in development |
| GenerateRoute.PassedGatesStream | apps/web/app/api/generate/route.ts:17-99 | a request with "continue" or "improve" that passes the key check and the limiter gets a streamed completion |
| GenerateRoute.OnlyTwoOptions | apps/web/app/api/generate/route.ts:60-87 | any other option fails once the gates are passed |

## Left out

- Rendering, React state hooks, toasts, icons, class names, the `cn` helper and `highlightCodeblocks`: these are presentation, not logic.
- The debounce timers: they are abstracted to "save pending" flags. Which of several quick edits a timer finally sees is not modelled, and neither are the stale closures React effects may capture.
- JSON serialisation: storage maps keys to parsed lists. Text that does not parse, and throws at mount, is not modelled.
- The content save's own writes (`html-content`, `novel-content`, `markdown`) and the word count: they need the editor's serialisers, which are not part of this model.
- The editor provider's own debounced save (`setContent` and `onDebouncedUpdate`) and its focus-on-click: these are side effects with no logic to state.
- The editor library's internals (`getPrevText`, mark commands and queries, transactions): they are given the span-level meaning described in each module. `getPrevText` is not part of this model, so `Autocomplete.PrevText` takes it as the plain text before the cursor.
- Textblock boundaries: a cursor at the end of a textblock that another block follows is the same boundary as the start of the next one, so the model reads the next block's first span there. An empty textblock is a span with empty text.
- Stored marks on a collapsed selection: mark commands change only covered spans, and `getAttributes` and `isActive` on a cursor read only `$from.marks()`.
- Non-inclusive marks at a cursor boundary: `$from.marks()` drops those the next node lacks. The comment mark is inclusive, so the comment queries are unaffected.
- CommentMark.CommentAttr: its contract states only the no-mark case. The id it reads is pinned down through `CommentMark.AddThenQuery` and `CommentSelector.ToggleTwiceRestores`.
- The mark's `renderHTML`, its `HTMLAttributes`, and its unused `activeCommentId` storage: these are markup only.
- The provider transport, IndexedDB persistence and its "synced" log: these are I/O. A provider is an opaque record.
- Network streaming and the request/response bodies: the completion is the request the handler builds. Streamed completions are inputs.
- The sampling parameters (`temperature`, `top_p`, penalties, `n`): these are floats and constants passed through.
- `console.log`, analytics and `onError`: these are logging only.
- A body that is not JSON: the model assumes it parses. The OpenAI client's constructor is modelled only by its one failure, a missing key.
- `window.confirm` is an input to `Autocomplete.OnMouseDown`. The UUID, the clock and the limiter's answer are inputs too.
- GenerateRoute.Post: its own contract states only the limiter key, the status codes and the client failure. Each branch is stated by a lemma after it: `AbsentKeyFailsFirst`, `MissingKeyFirst`, `LimiterConsultedIff`, `RefusedIffLimited`, `RefusalCarriesFigures`, `PassedGatesStream`, `CompletionShape` and `OnlyTwoOptions`.
- DateLabel.FormatDate: the parsing of the date string, time zones and locale formatting are inputs. Calendar days are proleptic Gregorian.
- NodeSelector.Select: the commands are named steps, and their effect on the document is the editor library's.
- Collaboration.GetProvider: the registry is a map, so a document or user name that is an inherited property of a plain object ("constructor", "__proto__") is treated as absent, whereas the source would find the inherited value there.
- HorizontalRule.ApplyInputRule: the document is a list of top-level blocks, and only a match ending at the cursor is modelled.

=== FILE: autocomplete.dfy ===
/**
 The "++" autocomplete of the headless editor provider
 (`packages/headless/src/components/editor/editor-provider.tsx`): the
 trigger in `onUpdate`, insertion of streamed completion chunks, the
 selection made when the completion finishes, the Escape / Cmd+Z and
 mouse-down handlers while loading, and one-shot hydration from storage.

 The editor is abstracted to its plain text and a collapsed cursor; a
 position is an index into the text. The completion request itself is an
 output (`request`), and the completions it streams back are inputs.
 */
module Autocomplete {
  import opened Base

  /** The two characters that request a completion. */
  const Trigger := "++"

  /** How many characters before the cursor are sent as the prompt. */
  const PromptWindow := 5000

  datatype Editor = Editor(text: string, cursor: nat)

  predicate Valid(e: Editor) {
    e.cursor <= |e.text|
  }

  /** `getPrevText(editor, {chars})`: at most `chars` characters ending at
      the cursor. */
  function PrevText(e: Editor, chars: nat): (r: string)
    requires Valid(e)
    ensures IsSuffix(r, e.text[..e.cursor])
    ensures |r| == if e.cursor < chars then e.cursor else chars
  {
    var start := if e.cursor < chars then 0 else e.cursor - chars;
    assert e.text[..e.cursor][e.cursor - (e.cursor - start)..] == e.text[start..e.cursor];
    e.text[start..e.cursor]
  }

  /** `deleteRange({from, to})`, with the cursor mapped through the
      deletion as the editor does. */
  function DeleteRange(e: Editor, from: nat, to: nat): (r: Editor)
    requires Valid(e) && from <= to <= |e.text|
    ensures Valid(r) && r.text == e.text[..from] + e.text[to..]
    ensures e.cursor <= from ==> r.cursor == e.cursor
    ensures from <= e.cursor <= to ==> r.cursor == from
    ensures to <= e.cursor ==> r.cursor == e.cursor - (to - from)
  {
    var c := if e.cursor <= from then e.cursor else if e.cursor <= to then from else e.cursor - (to - from);
    Editor(e.text[..from] + e.text[to..], c)
  }

  /** `insertContent(s)`: inserts at the cursor and moves past it. */
  function Insert(e: Editor, s: string): (r: Editor)
    requires Valid(e)
    ensures Valid(r) && r.text == e.text[..e.cursor] + s + e.text[e.cursor..]
    ensures r.cursor == e.cursor + |s|
  {
    Editor(e.text[..e.cursor] + s + e.text[e.cursor..], e.cursor + |s|)
  }

  /** "++" sits just before the cursor. */
  predicate TriggerBefore(e: Editor) {
    2 <= e.cursor <= |e.text| && e.text[e.cursor - 2..e.cursor] == Trigger
  }

  /** `n` copies of `s`. */
  function Repeat(s: string, n: nat): (r: string)
    ensures |r| == n * |s|
  {
    if n == 0 then "" else Repeat(s, n - 1) + s
  }

  /** What one `onUpdate` call did: the editor afterwards, the prompts of
      the completion requests made, in call order, and the editor the
      owner's `onUpdate` and the debounced save were given. */
  datatype UpdateEffect = UpdateEffect(editor: Editor, requests: seq<string>, notified: Editor)

  /** `onUpdate`: when the two characters before the cursor are "++"
      (`TriggerBefore`, the handler's `getPrevText` test by
      `TriggerIsPrevText`) and no completion is loading, delete them and
      request a completion of the (at most 5000) characters before the
      cursor; otherwise pass the update on to the owner and the debounced
      save. The deletion is a document change, so the editor runs
      `onUpdate` again, synchronously and with the same `loading`, before
      the request is made; by then the nested runs have finished, so every
      request reads the final editor. */
  function OnUpdate(e: Editor, loading: bool): (r: UpdateEffect)
    requires Valid(e)
    ensures Valid(r.editor) && r.editor.cursor <= e.cursor
    ensures r.notified == r.editor
    ensures loading || !TriggerBefore(e) ==> r == UpdateEffect(e, [], e)
    decreases e.cursor
  {
    if TriggerBefore(e) && !loading then
      var nested := OnUpdate(DeleteRange(e, e.cursor - 2, e.cursor), loading);
      UpdateEffect(nested.editor, nested.requests + [PrevText(nested.editor, PromptWindow)], nested.notified)
    else
      UpdateEffect(e, [], e)
  }

  /** The owner is told about an editor with no "++" left before the cursor
      (unless a completion was loading); each request took away one "++"
      just before the cursor, and nothing else changed; and every request
      is the same prompt, read from that final editor. */
  lemma {:induction false} OnUpdateDeletesTriggers(e: Editor, loading: bool)
    requires Valid(e)
    ensures var r := OnUpdate(e, loading);
      && (!loading ==> !TriggerBefore(r.editor))
      && r.editor.cursor + 2 * |r.requests| == e.cursor
      && r.editor.text == e.text[..r.editor.cursor] + e.text[e.cursor..]
      && e.text[r.editor.cursor..e.cursor] == Repeat(Trigger, |r.requests|)
      && forall j :: 0 <= j < |r.requests| ==> r.requests[j] == PrevText(r.editor, PromptWindow)
    decreases e.cursor
  {
    if TriggerBefore(e) && !loading {
      var e1 := DeleteRange(e, e.cursor - 2, e.cursor);
      OnUpdateDeletesTriggers(e1, loading);
      TriggerStep(e, e1, OnUpdate(e1, loading), OnUpdate(e, loading));
    } else {
      assert e.text[e.cursor..e.cursor] == Repeat(Trigger, 0);
    }
  }

  /** The handler's test `getPrevText(editor, {chars: 2}) === "++"` is
      `TriggerBefore`. */
  lemma TriggerIsPrevText(e: Editor)
    requires Valid(e)
    ensures PrevText(e, 2) == Trigger <==> TriggerBefore(e)
  {
    if 2 <= e.cursor {
      assert PrevText(e, 2) == e.text[e.cursor - 2..e.cursor];
    }
  }

  /** The trigger branch of `OnUpdate` from what the nested run did. */
  lemma TriggerStep(e: Editor, e1: Editor, nested: UpdateEffect, r: UpdateEffect)
    requires Valid(e) && TriggerBefore(e) && e1 == DeleteRange(e, e.cursor - 2, e.cursor)
    requires Valid(nested.editor) && nested.notified == nested.editor && !TriggerBefore(nested.editor)
    requires nested.editor.cursor + 2 * |nested.requests| == e1.cursor
    requires nested.editor.text == e1.text[..nested.editor.cursor] + e1.text[e1.cursor..]
    requires e1.text[nested.editor.cursor..e1.cursor] == Repeat(Trigger, |nested.requests|)
    requires forall j :: 0 <= j < |nested.requests| ==> nested.requests[j] == PrevText(nested.editor, PromptWindow)
    requires r == UpdateEffect(nested.editor, nested.requests + [PrevText(nested.editor, PromptWindow)], nested.notified)
    ensures Valid(r.editor) && r.notified == r.editor && !TriggerBefore(r.editor)
    ensures r.editor.cursor + 2 * |r.requests| == e.cursor
    ensures r.editor.text == e.text[..r.editor.cursor] + e.text[e.cursor..]
    ensures e.text[r.editor.cursor..e.cursor] == Repeat(Trigger, |r.requests|)
    ensures forall j :: 0 <= j < |r.requests| ==> r.requests[j] == PrevText(r.editor, PromptWindow)
  {
    PeelTrigger(e, e1, nested.editor, |nested.requests|);
  }

  /** One more trigger deleted in front of the nested runs' deletions:
      what the final editor keeps and what it lost, seen from the outer
      editor. */
  lemma PeelTrigger(e: Editor, e1: Editor, f: Editor, n: nat)
    requires Valid(e) && TriggerBefore(e) && e1 == DeleteRange(e, e.cursor - 2, e.cursor)
    requires f.cursor + 2 * n == e1.cursor
    requires f.text == e1.text[..f.cursor] + e1.text[e1.cursor..]
    requires e1.text[f.cursor..e1.cursor] == Repeat(Trigger, n)
    ensures f.cursor + 2 * (n + 1) == e.cursor
    ensures f.text == e.text[..f.cursor] + e.text[e.cursor..]
    ensures e.text[f.cursor..e.cursor] == Repeat(Trigger, n + 1)
  {
    var c := e.cursor - 2;
    assert e1.text == e.text[..c] + e.text[e.cursor..] && e1.cursor == c;
    assert e1.text[..f.cursor] == e.text[..f.cursor];
    assert e1.text[e1.cursor..] == e.text[e.cursor..];
    assert e1.text[f.cursor..e1.cursor] == e.text[f.cursor..c];
    assert e.text[f.cursor..e.cursor] == e.text[f.cursor..c] + e.text[c..e.cursor];
  }

  /** Typing "++" after text that does not itself end in "++" deletes just
      that trigger, tells the owner about the result (for "ab++", about
      "ab"), and makes one request: a suffix of the text before the
      trigger, at most 5000 characters long. */
  lemma SingleTrigger(before: string, after: string)
    requires !IsSuffix(Trigger, before)
    ensures var u := OnUpdate(Editor(before + Trigger + after, |before| + 2), false);
      && u.editor == Editor(before + after, |before|) && u.notified == u.editor
      && |u.requests| == 1 && IsSuffix(u.requests[0], before)
      && |u.requests[0]| == if |before| < PromptWindow then |before| else PromptWindow
  {
    var e := Editor(before + Trigger + after, |before| + 2);
    var e1 := Editor(before + after, |before|);
    assert TriggerBefore(e) && DeleteRange(e, e.cursor - 2, e.cursor) == e1 by {
      assert e.text[e.cursor - 2..e.cursor] == Trigger;
      assert e.text[..e.cursor - 2] == before && e.text[e.cursor..] == after;
    }
    assert !TriggerBefore(e1) by {
      if |before| >= 2 {
        assert e1.text[|before| - 2..|before|] == before[|before| - 2..];
      }
    }
    assert e1.text[..e1.cursor] == before;
  }

  /** Typing "++" right after another "++" (as in "++++") deletes both, each
      in its own run of the handler; the owner is told once, about the text
      without either, and two identical completions of the text before them
      are requested. */
  lemma TwoTriggers(before: string, after: string)
    requires !IsSuffix(Trigger, before)
    ensures var u := OnUpdate(Editor(before + Trigger + Trigger + after, |before| + 4), false);
      && u.editor == Editor(before + after, |before|) && u.notified == u.editor
      && |u.requests| == 2 && u.requests[0] == u.requests[1] && IsSuffix(u.requests[0], before)
  {
    var e := Editor(before + Trigger + Trigger + after, |before| + 4);
    var e1 := Editor(before + Trigger + after, |before| + 2);
    assert TriggerBefore(e) && DeleteRange(e, e.cursor - 2, e.cursor) == e1 by {
      assert e.text[e.cursor - 2..e.cursor] == Trigger;
      assert e.text[..e.cursor - 2] == before + Trigger && e.text[e.cursor..] == after;
    }
    SingleTrigger(before, after);
  }

  /** The chunk-insertion effect: insert `completion.slice(prev.length)`
      and remember `completion` as `prev`. `slice` past the end gives "".
      The result is the chunk and the new `prev`. */
  function ChunkStep(prev: string, completion: string): (r: (string, string))
    ensures r.1 == completion
    ensures IsSuffix(r.0, completion)
    ensures |r.0| == if |completion| <= |prev| then 0 else |completion| - |prev|
    ensures IsPrefix(prev, completion) ==> prev + r.0 == completion
  {
    if |prev| <= |completion| then (completion[|prev|..], completion) else ("", completion)
  }

  /** Each completion extends the one before it, the first extending
      `prev`. */
  predicate Extends(prev: string, completions: seq<string>) {
    && (|completions| > 0 ==> IsPrefix(prev, completions[0]))
    && forall i :: 0 < i < |completions| ==> IsPrefix(completions[i - 1], completions[i])
  }

  /** Runs the chunk-insertion effect once per observed completion; the
      result is the editor and the final `prev`. */
  function Stream(e: Editor, prev: string, completions: seq<string>): (r: (Editor, string))
    requires Valid(e)
    ensures Valid(r.0)
    ensures |completions| > 0 ==> r.1 == completions[|completions| - 1]
    ensures |completions| == 0 ==> r == (e, prev)
    decreases |completions|
  {
    if |completions| == 0 then (e, prev)
    else
      var (chunk, prev') := ChunkStep(prev, completions[0]);
      Stream(Insert(e, chunk), prev', completions[1..])
  }

  /** The text the chunk-insertion effect puts in, in order. */
  function Chunks(prev: string, completions: seq<string>): string
    decreases |completions|
  {
    if |completions| == 0 then ""
    else
      var (chunk, prev') := ChunkStep(prev, completions[0]);
      chunk + Chunks(prev', completions[1..])
  }

  /** When every completion extends the previous one, the chunks put
      together are exactly the final completion minus the starting
      `prev`. */
  lemma {:induction false} ChunksRebuildCompletion(prev: string, completions: seq<string>)
    requires |completions| > 0 && Extends(prev, completions)
    ensures IsPrefix(prev, completions[|completions| - 1])
    ensures prev + Chunks(prev, completions) == completions[|completions| - 1]
    decreases |completions|
  {
    var (chunk, prev') := ChunkStep(prev, completions[0]);
    assert IsPrefix(prev, completions[0]);
    if |completions| > 1 {
      var rest := completions[1..];
      assert Extends(prev', rest) by {
        assert IsPrefix(completions[0], completions[1]);
        forall i | 0 < i < |rest|
          ensures IsPrefix(rest[i - 1], rest[i])
        {
          assert rest[i] == completions[i + 1] && rest[i - 1] == completions[i];
        }
      }
      ChunksRebuildCompletion(prev', rest);
      assert rest[|rest| - 1] == completions[|completions| - 1];
    }
  }

  /** Streaming inserts the concatenated chunks at the cursor and leaves
      the cursor after them. */
  lemma {:induction false} StreamInsertsChunks(e: Editor, prev: string, completions: seq<string>)
    requires Valid(e)
    ensures var (e', _) := Stream(e, prev, completions);
      var c := Chunks(prev, completions);
      e'.text == e.text[..e.cursor] + c + e.text[e.cursor..] && e'.cursor == e.cursor + |c|
    decreases |completions|
  {
    if |completions| > 0 {
      var (chunk, prev') := ChunkStep(prev, completions[0]);
      var e1 := Insert(e, chunk);
      StreamInsertsChunks(e1, prev', completions[1..]);
      var rest := Chunks(prev', completions[1..]);
      assert e1.text[..e1.cursor] == e.text[..e.cursor] + chunk;
      assert e1.text[e1.cursor..] == e.text[e.cursor..];
    }
  }

  /** A completion no longer than `prev` inserts nothing, and observing the
      same completion again (the effect re-running on a loading change)
      inserts nothing either. */
  lemma NoGrowthNoInsert(e: Editor, prev: string, completion: string)
    requires Valid(e) && |completion| <= |prev|
    ensures Stream(e, prev, [completion]) == (e, completion)
    ensures Stream(e, prev, [completion, completion]) == (e, completion)
  {
    assert Insert(e, "") == e by {
      assert e.text[..e.cursor] + "" + e.text[e.cursor..] == e.text;
    }
    assert [completion, completion][1..] == [completion];
  }

  /** `onFinish`: select the `completion.length` characters before the
      cursor. The start is computed without a bound and may be negative. */
  function FinishSelection(e: Editor, completion: string): (r: (int, int))
    ensures r.1 == e.cursor && r.1 - r.0 == |completion|
  {
    (e.cursor - |completion|, e.cursor)
  }

  /** When every completion extends the previous one, streaming inserts
      the final completion minus the starting `prev` at the cursor. */
  lemma StreamExtending(e: Editor, prev: string, completions: seq<string>)
    requires Valid(e) && |completions| > 0 && Extends(prev, completions)
    ensures var last := completions[|completions| - 1];
      && IsPrefix(prev, last)
      && Stream(e, prev, completions).0 ==
        Editor(e.text[..e.cursor] + last[|prev|..] + e.text[e.cursor..], e.cursor + |last| - |prev|)
  {
    var last := completions[|completions| - 1];
    ChunksRebuildCompletion(prev, completions);
    StreamInsertsChunks(e, prev, completions);
    var c := Chunks(prev, completions);
    assert last[|prev|..] == c by {
      assert (prev + c)[|prev|..] == c;
    }
  }

  /** A completion streamed in from an empty `prev` is exactly what the
      finish selection covers. */
  lemma FinishSelectsCompletion(e: Editor, completions: seq<string>)
    requires Valid(e) && |completions| > 0 && Extends("", completions)
    ensures var (e', _) := Stream(e, "", completions);
      var (lo, hi) := FinishSelection(e', completions[|completions| - 1]);
      0 <= lo <= hi <= |e'.text| && e'.text[lo..hi] == completions[|completions| - 1]
  {
    var last := completions[|completions| - 1];
    StreamExtending(e, "", completions);
    var a := e.text[..e.cursor];
    var e' := Stream(e, "", completions).0;
    assert e' == Editor(a + last + e.text[e.cursor..], |a| + |last|);
    assert e'.text[|a|..|a| + |last|] == last;
  }

  datatype KeyEvent = KeyEvent(key: string, metaKey: bool)

  /** Result of a key press while a completion is loading: ignored, or the
      request was stopped and the editor changed; `RangeFault` is the
      deletion being refused because its start lies before the document
      (the "++" is then not restored). */
  datatype KeyOutcome = Ignored | Handled(editor: Editor) | RangeFault

  /** The keydown listener installed while loading: Escape and Cmd+Z stop
      the request and put "++" back; Escape first deletes the
      `completion.length` characters before the cursor. */
  function OnKeyDown(e: Editor, k: KeyEvent, completionLength: nat): (r: KeyOutcome)
    requires Valid(e)
    ensures r.Ignored? <==> k.key != "Escape" && !(k.metaKey && k.key == "z")
    ensures r.RangeFault? <==> k.key == "Escape" && e.cursor < completionLength
    ensures r.Handled? && k.key == "Escape" ==>
      r.editor == Insert(DeleteRange(e, e.cursor - completionLength, e.cursor), Trigger)
    ensures r.Handled? && k.key != "Escape" ==> r.editor == Insert(e, Trigger)
  {
    if k.key == "Escape" || (k.metaKey && k.key == "z") then
      if k.key == "Escape" then
        if e.cursor < completionLength then RangeFault
        else Handled(Insert(DeleteRange(e, e.cursor - completionLength, e.cursor), Trigger))
      else Handled(Insert(e, Trigger))
    else Ignored
  }

  /** Escape while a completion streams in from an empty `prev` deletes
      exactly the streamed text and puts "++" back at the cursor. */
  lemma EscapeUndoesStream(m: Editor, completions: seq<string>)
    requires Valid(m) && |completions| > 0 && Extends("", completions)
    ensures var last := completions[|completions| - 1];
      OnKeyDown(Stream(m, "", completions).0, KeyEvent("Escape", false), |last|) == Handled(Insert(m, Trigger))
  {
    var last := completions[|completions| - 1];
    StreamExtending(m, "", completions);
    var pre, post := m.text[..m.cursor], m.text[m.cursor..];
    var streamed := Stream(m, "", completions).0;
    assert streamed == Editor(pre + last + post, |pre| + |last|);
    assert streamed.text[..|pre|] == pre;
    assert streamed.text[|pre| + |last|..] == post;
    assert m.text == pre + post;
    assert DeleteRange(streamed, |pre|, |pre| + |last|) == m;
  }

  /** The full round trip: typing "++" requests a completion, streaming
      inserts it, and Escape removes it and puts one "++" back. When the
      text before did not already end in "++", that gives the text and
      cursor from before the trigger; otherwise the earlier "++" deleted
      by the nested update stays deleted. */
  lemma EscapeRestoresTrigger(before: string, after: string, completions: seq<string>)
    requires |completions| > 0 && Extends("", completions)
    ensures var e := Editor(before + Trigger + after, |before| + 2);
      var u := OnUpdate(e, false);
      var (streamed, _) := Stream(u.editor, "", completions);
      var last := completions[|completions| - 1];
      && OnKeyDown(streamed, KeyEvent("Escape", false), |last|) == Handled(Insert(u.editor, Trigger))
      && (!IsSuffix(Trigger, before) ==> OnKeyDown(streamed, KeyEvent("Escape", false), |last|) == Handled(e))
  {
    var e := Editor(before + Trigger + after, |before| + 2);
    var u := OnUpdate(e, false);
    EscapeUndoesStream(u.editor, completions);
    if !IsSuffix(Trigger, before) {
      SingleTrigger(before, after);
      var mid := Editor(before + after, |before|);
      assert mid.text[..mid.cursor] == before && mid.text[mid.cursor..] == after;
      assert Insert(mid, Trigger) == e;
    }
  }

  /** The mouse-down listener installed while loading: stop the request
      and, if the user confirms, request a completion of the whole text. */
  function OnMouseDown(e: Editor, confirmed: bool): (request: Option<string>)
    ensures request.Some? <==> confirmed
    ensures request.Some? ==> request.value == e.text
  {
    if confirmed then Some(e.text) else None
  }

  /** When "++" precedes the cursor, the final editor keeps the text before its
      cursor and after the original cursor, and every request is read from
      what precedes its cursor. */
  lemma TriggerKeepsSurroundings(e: Editor)
    requires Valid(e) && TriggerBefore(e)
    ensures var u := OnUpdate(e, false);
      var m := u.editor;
      && |u.requests| > 0 && m.cursor + 2 <= e.cursor
      && m.text[..m.cursor] == e.text[..m.cursor] && m.text[m.cursor..] == e.text[e.cursor..]
      && (forall j :: 0 <= j < |u.requests| ==> IsSuffix(u.requests[j], m.text[..m.cursor]))
  {
    var u := OnUpdate(e, false);
    var m := u.editor;
    OnUpdateDeletesTriggers(e, false);
    assert |u.requests| > 0;
    assert m.text[..m.cursor] == e.text[..m.cursor];
    assert m.text[m.cursor..] == e.text[e.cursor..];
  }

  /** A trigger typed after `before` leaves the cursor inside `before`, the text after it intact, and prompts drawn from what precedes the cursor. */
  lemma TriggerLeavesPrefix(before: string, after: string)
    ensures var u := OnUpdate(Editor(before + Trigger + after, |before| + 2), false);
      var m := u.editor;
      && |u.requests| > 0 && IsPrefix(m.text[..m.cursor], before) && m.text[m.cursor..] == after
      && (forall j :: 0 <= j < |u.requests| ==> IsSuffix(u.requests[j], m.text[..m.cursor]))
  {
    var e := Editor(before + Trigger + after, |before| + 2);
    var m := OnUpdate(e, false).editor;
    assert TriggerBefore(e) by {
      assert e.text[e.cursor - 2..e.cursor] == Trigger;
    }
    TriggerKeepsSurroundings(e);
    assert e.text[e.cursor..] == after;
    assert e.text[..m.cursor] == before[..m.cursor];
  }

  /** A click after a finished stream sends the text with the last completion spliced in at the cursor. */
  lemma ClickAfterStream(m: Editor, completions: seq<string>, confirmed: bool)
    requires Valid(m) && |completions| > 0 && Extends("", completions)
    ensures OnMouseDown(Stream(m, "", completions).0, confirmed)
      == (if confirmed then Some(m.text[..m.cursor] + completions[|completions| - 1] + m.text[m.cursor..]) else None)
  {
    StreamExtending(m, "", completions);
  }

  /** Clicking while a completion streams in after "++": the requests
      held only text before the trigger; a confirmed click requests a
      completion of the whole text, the partial completion and what follows
      the cursor included, and no "++" is put back. */
  lemma ClickRequestsWholeText(before: string, after: string, completions: seq<string>, confirmed: bool)
    requires |completions| > 0 && Extends("", completions)
    ensures var u := OnUpdate(Editor(before + Trigger + after, |before| + 2), false);
      var m := u.editor;
      && |u.requests| > 0 && IsPrefix(m.text[..m.cursor], before) && m.text[m.cursor..] == after
      && (forall j :: 0 <= j < |u.requests| ==> IsSuffix(u.requests[j], m.text[..m.cursor]))
      && OnMouseDown(Stream(m, "", completions).0, confirmed)
        == (if confirmed then Some(m.text[..m.cursor] + completions[|completions| - 1] + after) else None)
    ensures !IsSuffix(Trigger, before) ==>
      OnUpdate(Editor(before + Trigger + after, |before| + 2), false).editor == Editor(before + after, |before|)
  {
    var m := OnUpdate(Editor(before + Trigger + after, |before| + 2), false).editor;
    TriggerLeavesPrefix(before, after);
    ClickAfterStream(m, completions, confirmed);
    if !IsSuffix(Trigger, before) {
      SingleTrigger(before, after);
    }
  }

  /** Hydration bookkeeping: whether it has happened, and how many times
      `setContent` was called. */
  datatype Hydration = Hydration(hydrated: bool, setContentCalls: nat)

  /** One run of the hydration effect, with whether the editor exists and
      the stored content (None when absent or falsy). */
  function HydrateStep<C>(h: Hydration, editorReady: bool, content: Option<C>): (r: Hydration)
    ensures r.setContentCalls == h.setContentCalls + (if editorReady && content.Some? && !h.hydrated then 1 else 0)
    ensures r.hydrated <==> h.hydrated || (editorReady && content.Some?)
  {
    if editorReady && content.Some? && !h.hydrated then Hydration(true, h.setContentCalls + 1) else h
  }

  /** Runs the hydration effect over a series of renders. */
  function HydrateRuns<C>(h: Hydration, runs: seq<(bool, Option<C>)>): Hydration
    decreases |runs|
  {
    if |runs| == 0 then h else HydrateRuns(HydrateStep(h, runs[0].0, runs[0].1), runs[1..])
  }

  /** Starting unhydrated, `setContent` is called at most once over any
      series of renders, and exactly once when some render had both an
      editor and content. */
  lemma {:induction false} HydrateAtMostOnce<C>(h: Hydration, runs: seq<(bool, Option<C>)>)
    requires h.hydrated ==> h.setContentCalls == 1
    requires !h.hydrated ==> h.setContentCalls == 0
    ensures HydrateRuns(h, runs).setContentCalls <= 1
    ensures HydrateRuns(h, runs).setContentCalls == 1 <==>
      h.hydrated || exists i :: 0 <= i < |runs| && runs[i].0 && runs[i].1.Some?
    decreases |runs|
  {
    if |runs| > 0 {
      var h' := HydrateStep(h, runs[0].0, runs[0].1);
      HydrateAtMostOnce(h', runs[1..]);
      assert forall i :: 1 <= i < |runs| ==> runs[i] == runs[1..][i - 1];
      if exists i :: 1 <= i < |runs| && runs[i].0 && runs[i].1.Some? {
        var i :| 1 <= i < |runs| && runs[i].0 && runs[i].1.Some?;
        assert runs[1..][i - 1] == runs[i];
      }
    }
  }
}

=== FILE: base.dfy ===
/**
 Shared vocabulary for the model: an optional value, JavaScript-style
 truthiness of an optional string, and order-preserving filtering of a
 sequence together with the facts the other modules rely on.
 */
module Base {

  /** An optional value; `None` stands for JavaScript's `null`/`undefined`. */
  datatype Option<+T> = None | Some(value: T) {

    /** The wrapped value, or `default` when there is none (`x ?? default`). */
    function GetOr(default: T): T {
      match this
      case Some(v) => v
      case None => default
    }
  }

  /** JavaScript truthiness of a value that is a string, `null` or `undefined`:
      only a present, non-empty string is truthy. */
  predicate Truthy(v: Option<string>) {
    v.Some? && v.value != ""
  }

  /** `a` can be obtained from `b` by deleting zero or more elements, so the
      elements of `a` appear in `b` in the same relative order. */
  predicate IsSubsequence<T(==,!new)>(a: seq<T>, b: seq<T>)
    decreases |b|
  {
    if |a| == 0 then true
    else if |b| == 0 then false
    else (a[0] == b[0] && IsSubsequence(a[1..], b[1..])) || IsSubsequence(a, b[1..])
  }

  /** `p` is a prefix of `s`. */
  predicate IsPrefix<T(==,!new)>(p: seq<T>, s: seq<T>) {
    |p| <= |s| && s[..|p|] == p
  }

  /** `x` is a suffix of `s`. */
  predicate IsSuffix<T(==,!new)>(x: seq<T>, s: seq<T>) {
    |x| <= |s| && s[|s| - |x|..] == x
  }

  /** The elements of `s` satisfying `keep`, in their original order
      (`Array.prototype.filter`). The result is pinned down completely by
      its multiplicities together with being a subsequence of `s`. */
  function Filter<T(==,!new)>(s: seq<T>, keep: T -> bool): (r: seq<T>)
    ensures |r| <= |s|
    ensures forall x :: x in r <==> x in s && keep(x)
    ensures forall x :: multiset(r)[x] == if keep(x) then multiset(s)[x] else 0
    ensures IsSubsequence(r, s)
  {
    if |s| == 0 then []
    else
      assert s == [s[0]] + s[1..];
      var rest := Filter(s[1..], keep);
      if keep(s[0]) then
        assert ([s[0]] + rest)[1..] == rest;
        [s[0]] + rest
      else rest
  }

  /** Filtering distributes over concatenation: each part is filtered in
      place, which is what "relative order is preserved" means. */
  lemma {:induction false} FilterConcat<T(!new)>(a: seq<T>, b: seq<T>, keep: T -> bool)
    ensures Filter(a + b, keep) == Filter(a, keep) + Filter(b, keep)
  {
    if |a| == 0 {
      assert a + b == b;
    } else {
      assert (a + b)[0] == a[0];
      assert (a + b)[1..] == a[1..] + b;
      FilterConcat(a[1..], b, keep);
    }
  }

  /** One step of `Filter`: the head, when kept, followed by the filtered
      tail. */
  lemma FilterCons<T(!new)>(s: seq<T>, keep: T -> bool)
    requires |s| > 0
    ensures Filter(s, keep) == (if keep(s[0]) then [s[0]] else []) + Filter(s[1..], keep)
  {
  }

  /** Filtering a sequence whose every element is kept changes nothing. */
  lemma {:induction false} FilterAllKept<T(!new)>(s: seq<T>, keep: T -> bool)
    requires forall i :: 0 <= i < |s| ==> keep(s[i])
    ensures Filter(s, keep) == s
  {
    if |s| > 0 {
      FilterAllKept(s[1..], keep);
      assert s == [s[0]] + s[1..];
    }
  }

  /** Filtering twice with the same predicate is filtering once. */
  lemma FilterIdempotent<T(!new)>(s: seq<T>, keep: T -> bool)
    ensures Filter(Filter(s, keep), keep) == Filter(s, keep)
  {
    var r := Filter(s, keep);
    forall i | 0 <= i < |r|
      ensures keep(r[i])
    {
      assert r[i] in r;
    }
    FilterAllKept(r, keep);
  }

  /** Index of the first element satisfying `p` (`Array.prototype.find`). */
  function FindFirst<T>(s: seq<T>, p: T -> bool): (r: Option<nat>)
    ensures r.Some? ==> r.value < |s| && p(s[r.value])
    ensures r.Some? ==> forall j :: 0 <= j < r.value ==> !p(s[j])
    ensures r.None? ==> forall j :: 0 <= j < |s| ==> !p(s[j])
  {
    if |s| == 0 then None
    else if p(s[0]) then Some(0)
    else match FindFirst(s[1..], p)
      case None => None
      case Some(k) => Some(k + 1)
  }

  /** Index of the last element satisfying `p` (`filter(p).pop()`). */
  function FindLast<T>(s: seq<T>, p: T -> bool): (r: Option<nat>)
    ensures r.Some? ==> r.value < |s| && p(s[r.value])
    ensures r.Some? ==> forall j :: r.value < j < |s| ==> !p(s[j])
    ensures r.None? ==> forall j :: 0 <= j < |s| ==> !p(s[j])
  {
    if |s| == 0 then None
    else if p(s[|s| - 1]) then Some(|s| - 1)
    else FindLast(s[..|s| - 1], p)
  }

  /** A match found in a prefix is the first match of any extension. */
  lemma {:induction false} FindFirstExtend<T>(a: seq<T>, b: seq<T>, p: T -> bool)
    requires FindFirst(a, p).Some?
    ensures FindFirst(a + b, p) == FindFirst(a, p)
  {
    if !p(a[0]) {
      assert (a + b)[1..] == a[1..] + b;
      FindFirstExtend(a[1..], b, p);
    }
  }
}

=== FILE: collaboration.dfy ===
/**
 The collaboration provider registry of
 `packages/headless/src/extensions/collaboration.ts`: a module-wide,
 two-level map from document id and user id to a collaboration provider,
 filled on first use. A provider is an opaque token: a serial number,
 unique per construction, plus the configuration it was built with. The
 transport, the shared document's contents and the IndexedDB sync are not
 modelled.
 */
module Collaboration {
  import opened Base

  /** The process environment the provider configuration reads. */
  datatype Env = Env(appId: Option<string>, token: Option<string>)

  /** A constructed provider; `serial` tells constructions apart and also
      names the shared document the provider owns. */
  datatype Provider = Provider(serial: nat, name: string, appId: string, token: string)

  /** `providers`, plus the number of providers constructed so far. */
  datatype Registry = Registry(providers: map<string, map<string, Provider>>, created: nat)

  const EmptyRegistry := Registry(map[], 0)

  function Lookup(reg: Registry, doc: string, user: string): Option<Provider> {
    if doc in reg.providers && user in reg.providers[doc] then Some(reg.providers[doc][user]) else None
  }

  /** Every stored provider was constructed earlier, is named by its
      document, and no provider is stored under two keys. */
  ghost predicate Valid(reg: Registry) {
    && (forall d, u :: Lookup(reg, d, u).Some? ==>
          Lookup(reg, d, u).value.serial < reg.created && Lookup(reg, d, u).value.name == d)
    && (forall d1, u1, d2, u2 :: Lookup(reg, d1, u1).Some? && Lookup(reg, d2, u2).Some? && (d1, u1) != (d2, u2) ==>
          Lookup(reg, d1, u1).value.serial != Lookup(reg, d2, u2).value.serial)
  }

  /** `getProvider(documentId, userId)`: the stored provider when there is
      one; otherwise a new provider named by the document, stored at
      `providers[documentId][userId]` (creating the inner map first when
      the document is unseen). */
  function GetProvider(reg: Registry, env: Env, doc: string, user: string): (r: (Registry, Provider))
    ensures Lookup(r.0, doc, user) == Some(r.1)
    ensures Lookup(reg, doc, user).Some? ==> r == (reg, Lookup(reg, doc, user).value)
    ensures Lookup(reg, doc, user).None? ==>
      && r.1 == Provider(reg.created, doc, env.appId.GetOr(""), env.token.GetOr(""))
      && r.0.created == reg.created + 1
    ensures doc !in reg.providers ==> r.0.providers[doc].Keys == {user}
    ensures forall d, u :: (d, u) != (doc, user) ==> Lookup(r.0, d, u) == Lookup(reg, d, u)
    ensures r.0.providers.Keys == reg.providers.Keys + {doc}
  {
    var providers := if doc in reg.providers then reg.providers else reg.providers[doc := map[]];
    var inner := providers[doc];
    if user in inner then
      (reg, inner[user])
    else
      var p := Provider(reg.created, doc, env.appId.GetOr(""), env.token.GetOr(""));
      (Registry(providers[doc := inner[user := p]], reg.created + 1), p)
  }

  /** A Tiptap extension configured by `getCollaborationExtensions`. */
  datatype Extension =
    | CollaborationExt(document: nat)
    | CollaborationCursorExt(provider: Provider, userName: string, color: string)

  /** `getCollaborationExtensions(documentId, userId, color)`: the shared
      document extension and the cursor extension, both on the provider
      for that document and user. */
  function GetCollaborationExtensions(reg: Registry, env: Env, doc: string, user: string, color: string)
    : (r: (Registry, seq<Extension>))
    ensures r.0 == GetProvider(reg, env, doc, user).0
    ensures |r.1| == 2 && r.1[0].CollaborationExt? && r.1[1].CollaborationCursorExt?
    ensures Lookup(r.0, doc, user) == Some(r.1[1].provider)
    ensures r.1[0].document == r.1[1].provider.serial
    ensures r.1[1].userName == user && r.1[1].color == color
  {
    var (reg', p) := GetProvider(reg, env, doc, user);
    (reg', [CollaborationExt(p.serial), CollaborationCursorExt(p, user, color)])
  }

  /** The registry starts out valid. */
  lemma EmptyRegistryValid()
    ensures Valid(EmptyRegistry)
  {
  }

  /** Every lookup keeps the registry valid. */
  lemma GetProviderKeepsValid(reg: Registry, env: Env, doc: string, user: string)
    requires Valid(reg)
    ensures Valid(GetProvider(reg, env, doc, user).0)
  {
    var (reg', p) := GetProvider(reg, env, doc, user);
    if Lookup(reg, doc, user).None? {
      forall d1, u1, d2, u2 | Lookup(reg', d1, u1).Some? && Lookup(reg', d2, u2).Some? && (d1, u1) != (d2, u2)
        ensures Lookup(reg', d1, u1).value.serial != Lookup(reg', d2, u2).value.serial
      {
        if (d1, u1) == (doc, user) {
          assert Lookup(reg', d2, u2) == Lookup(reg, d2, u2);
        } else if (d2, u2) == (doc, user) {
          assert Lookup(reg', d1, u1) == Lookup(reg, d1, u1);
        }
      }
    }
  }

  /** A second lookup of the same document and user returns the same
      provider and changes nothing. */
  lemma GetProviderMemoises(reg: Registry, env: Env, env2: Env, doc: string, user: string)
    ensures var (reg1, p1) := GetProvider(reg, env, doc, user);
      GetProvider(reg1, env2, doc, user) == (reg1, p1)
  {
  }

  /** Two users of one document, looked up one after the other, get
      different providers, both named by the document. */
  lemma DistinctUsersDistinctProviders(reg: Registry, env: Env, doc: string, u1: string, u2: string)
    requires Valid(reg) && u1 != u2
    ensures var (reg1, p1) := GetProvider(reg, env, doc, u1);
      var (reg2, p2) := GetProvider(reg1, env, doc, u2);
      p1 != p2 && p1.name == doc && p2.name == doc
  {
    var (reg1, p1) := GetProvider(reg, env, doc, u1);
    GetProviderKeepsValid(reg, env, doc, u1);
    var (reg2, p2) := GetProvider(reg1, env, doc, u2);
    GetProviderKeepsValid(reg1, env, doc, u2);
    assert Lookup(reg2, doc, u1) == Some(p1);
    assert Lookup(reg2, doc, u2) == Some(p2);
  }
}

=== FILE: comment_list.dfy ===
/**
 The comment records kept beside the document by the editor page
 (`apps/web/components/tailwind/advanced-editor.tsx`): an ordered list of
 `{id, content, createdAt}` with append, remove-by-id, update-by-id and
 reconciliation against the comment ids still marked in the document.
 */
module CommentList {
  import opened Base
  import opened CommentMark

  /** `createdAt` is the ISO-8601 text of the creation instant; the clock
      is a parameter of `Add`. */
  datatype Comment = Comment(id: string, content: string, createdAt: string)

  function Ids(cs: seq<Comment>): set<string> {
    set c | c in cs :: c.id
  }

  /** Number of records carrying `id`. */
  function Occurrences(cs: seq<Comment>, id: string): nat {
    if |cs| == 0 then 0
    else (if cs[0].id == id then 1 else 0) + Occurrences(cs[1..], id)
  }

  /** No two records share an id. */
  predicate DistinctIds(cs: seq<Comment>) {
    forall i, j :: 0 <= i < j < |cs| ==> cs[i].id != cs[j].id
  }

  /** `addComment(id)`: appends a record with that id, empty content and
      the current time; the id is not checked against the list. */
  function Add(cs: seq<Comment>, id: string, now: string): (r: seq<Comment>)
    ensures |r| == |cs| + 1 && r[..|cs|] == cs
    ensures r[|cs|].id == id && r[|cs|].content == "" && r[|cs|].createdAt == now
    ensures Ids(r) == Ids(cs) + {id}
  {
    var r := cs + [Comment(id, "", now)];
    assert forall c :: c in r <==> c in cs || c == Comment(id, "", now);
    r
  }

  function KeepOther(id: string): Comment -> bool {
    (c: Comment) => c.id != id
  }

  /** `removeComment(id)`: drops every record with that id. */
  function Remove(cs: seq<Comment>, id: string): (r: seq<Comment>)
    ensures forall c :: c in r <==> c in cs && c.id != id
    ensures forall c :: multiset(r)[c] == if c.id != id then multiset(cs)[c] else 0
    ensures Ids(r) == Ids(cs) - {id}
    ensures IsSubsequence(r, cs)
    ensures id !in Ids(cs) ==> r == cs
  {
    if id !in Ids(cs) then
      assert forall i :: 0 <= i < |cs| ==> KeepOther(id)(cs[i]) by {
        forall i | 0 <= i < |cs| ensures KeepOther(id)(cs[i]) {
          assert cs[i] in cs;
        }
      }
      FilterAllKept(cs, KeepOther(id));
      Filter(cs, KeepOther(id))
    else Filter(cs, KeepOther(id))
  }

  /** The record `c` after `updateComment(id, content)`. */
  function UpdateOne(c: Comment, id: string, content: string): Comment {
    if c.id == id then c.(content := content) else c
  }

  /** `updateComment(id, content)`: every record with that id gets the new
      content; all else is kept in place. */
  function Update(cs: seq<Comment>, id: string, content: string): (r: seq<Comment>)
    ensures |r| == |cs|
    ensures forall i :: 0 <= i < |cs| ==> r[i].id == cs[i].id && r[i].createdAt == cs[i].createdAt
    ensures forall i :: 0 <= i < |cs| && cs[i].id != id ==> r[i] == cs[i]
    ensures forall i :: 0 <= i < |cs| && cs[i].id == id ==> r[i].content == content
    ensures Ids(r) == Ids(cs)
  {
    if |cs| == 0 then []
    else
      var rest := Update(cs[1..], id, content);
      var r := [UpdateOne(cs[0], id, content)] + rest;
      assert cs == [cs[0]] + cs[1..];
      assert Ids(cs) == {cs[0].id} + Ids(cs[1..]);
      assert Ids(r) == {r[0].id} + Ids(rest);
      r
  }

  /** The ids kept alive by a list of marks: those of comment marks whose
      `commentId` is truthy. */
  function MarkIds(marks: seq<Mark>): set<string> {
    set m | m in marks && IsCommentMark(m) && Truthy(m.commentId) :: m.commentId.value
  }

  /** Span `s` carries a comment mark with id `id`. */
  predicate CarriesId(s: Span, id: string) {
    Mark(CommentMarkName, Some(id)) in s.marks
  }

  /** The ids collected by `removeCommentsWithoutMarks`, walking every node
      of the document: only marks named `comment` with a truthy
      `commentId` count. */
  function LiveIds(doc: seq<Span>): (ids: set<string>)
    ensures forall id :: id in ids <==> id != "" && exists i :: 0 <= i < |doc| && CarriesId(doc[i], id)
  {
    if |doc| == 0 then {}
    else
      var rest := LiveIds(doc[1..]);
      assert forall id :: id in MarkIds(doc[0].marks) <==> id != "" && CarriesId(doc[0], id);
      assert forall i :: 1 <= i < |doc| ==> doc[i] == doc[1..][i - 1];
      MarkIds(doc[0].marks) + rest
  }

  function KeepLive(live: set<string>): Comment -> bool {
    (c: Comment) => c.id in live
  }

  /** Keeps exactly the records whose id is in `live`, in order. */
  function Reconcile(cs: seq<Comment>, live: set<string>): (r: seq<Comment>)
    ensures Ids(r) <= live
    ensures forall c :: c in cs && c.id in live ==> c in r
    ensures forall c :: c in r ==> c in cs
    ensures forall c :: multiset(r)[c] == if c.id in live then multiset(cs)[c] else 0
    ensures IsSubsequence(r, cs)
  {
    Filter(cs, KeepLive(live))
  }

  /** `removeCommentsWithoutMarks(editor)`: reconciles the list with the
      comment ids marked in the document. */
  function RemoveCommentsWithoutMarks(cs: seq<Comment>, doc: seq<Span>): (r: seq<Comment>)
    ensures forall c :: c in r <==> c in cs && c.id != "" && exists i :: 0 <= i < |doc| && CarriesId(doc[i], c.id)
    ensures forall c :: multiset(r)[c] == if c.id in LiveIds(doc) then multiset(cs)[c] else 0
    ensures IsSubsequence(r, cs)
  {
    Reconcile(cs, LiveIds(doc))
  }

  /** `Occurrences` adds up over concatenation. */
  lemma {:induction false} OccurrencesConcat(a: seq<Comment>, b: seq<Comment>, id: string)
    ensures Occurrences(a + b, id) == Occurrences(a, id) + Occurrences(b, id)
  {
    if |a| == 0 {
      assert a + b == b;
    } else {
      assert (a + b)[1..] == a[1..] + b;
      OccurrencesConcat(a[1..], b, id);
    }
  }

  /** Adding never merges with an existing record: adding an id already
      present leaves two records with that id. */
  lemma AddCountsOneMore(cs: seq<Comment>, id: string, now: string)
    ensures Occurrences(Add(cs, id, now), id) == Occurrences(cs, id) + 1
  {
    OccurrencesConcat(cs, [Comment(id, "", now)], id);
  }

  /** The distinct-ids invariant is kept by `Add` exactly when the id is
      new. */
  lemma AddKeepsDistinct(cs: seq<Comment>, id: string, now: string)
    requires DistinctIds(cs)
    ensures DistinctIds(Add(cs, id, now)) <==> id !in Ids(cs)
  {
    var r := Add(cs, id, now);
    if id in Ids(cs) {
      var c :| c in cs && c.id == id;
      var i :| 0 <= i < |cs| && cs[i] == c;
      assert r[i].id == r[|cs|].id;
    } else {
      forall i, j | 0 <= i < j < |r| ensures r[i].id != r[j].id {
        if j == |cs| {
          assert r[i] == cs[i] && cs[i] in cs;
        } else {
          assert r[i] == cs[i] && r[j] == cs[j];
        }
      }
    }
  }

  /** A subsequence of a list with distinct ids has distinct ids. */
  lemma {:induction false} SubsequenceKeepsDistinct(a: seq<Comment>, b: seq<Comment>)
    requires IsSubsequence(a, b) && DistinctIds(b)
    ensures DistinctIds(a)
    decreases |b|
  {
    if |a| > 0 {
      assert DistinctIds(b[1..]) by {
        forall i, j | 0 <= i < j < |b[1..]| ensures b[1..][i].id != b[1..][j].id {
          assert b[1..][i] == b[i + 1] && b[1..][j] == b[j + 1];
        }
      }
      if a[0] == b[0] && IsSubsequence(a[1..], b[1..]) {
        SubsequenceKeepsDistinct(a[1..], b[1..]);
        SubsequenceIds(a[1..], b[1..]);
        forall j | 0 < j < |a| ensures a[0].id != a[j].id {
          assert a[j] == a[1..][j - 1];
          assert a[j].id in Ids(b[1..]) by { assert a[1..][j - 1] in a[1..]; }
          var k :| 0 <= k < |b[1..]| && b[1..][k].id == a[j].id;
          assert b[k + 1].id == a[j].id;
        }
      } else {
        SubsequenceKeepsDistinct(a, b[1..]);
      }
    }
  }

  /** Every id of a subsequence occurs in the whole. */
  lemma {:induction false} SubsequenceIds(a: seq<Comment>, b: seq<Comment>)
    requires IsSubsequence(a, b)
    ensures forall c :: c in a ==> c.id in Ids(b)
    ensures Ids(a) <= Ids(b)
    decreases |b|
  {
    if |a| > 0 {
      assert b == [b[0]] + b[1..];
      assert Ids(b) == {b[0].id} + Ids(b[1..]);
      if a[0] == b[0] && IsSubsequence(a[1..], b[1..]) {
        SubsequenceIds(a[1..], b[1..]);
        assert a == [a[0]] + a[1..];
      } else {
        SubsequenceIds(a, b[1..]);
      }
    }
  }

  /** Remove, update and reconcile keep ids distinct. */
  lemma OperationsKeepDistinct(cs: seq<Comment>, id: string, content: string, live: set<string>)
    requires DistinctIds(cs)
    ensures DistinctIds(Remove(cs, id))
    ensures DistinctIds(Update(cs, id, content))
    ensures DistinctIds(Reconcile(cs, live))
  {
    SubsequenceKeepsDistinct(Remove(cs, id), cs);
    SubsequenceKeepsDistinct(Reconcile(cs, live), cs);
  }

  /** Removing an id right after adding it gives the same list as removing
      it from the original; for a fresh id that is the original list. */
  lemma RemoveAfterAdd(cs: seq<Comment>, id: string, now: string)
    ensures Remove(Add(cs, id, now), id) == Remove(cs, id)
    ensures id !in Ids(cs) ==> Remove(Add(cs, id, now), id) == cs
  {
    FilterConcat(cs, [Comment(id, "", now)], KeepOther(id));
    assert Filter([Comment(id, "", now)], KeepOther(id)) == [];
  }

  /** Updating an absent id changes nothing. */
  lemma UpdateAbsent(cs: seq<Comment>, id: string, content: string)
    requires id !in Ids(cs)
    ensures Update(cs, id, content) == cs
  {
    var r := Update(cs, id, content);
    forall i | 0 <= i < |cs| ensures r[i] == cs[i] {
      assert cs[i] in cs;
    }
  }

  /** Updating twice with the same content is updating once; the later of
      two updates of one id wins. */
  lemma UpdateLastWins(cs: seq<Comment>, id: string, c1: string, c2: string)
    ensures Update(Update(cs, id, c1), id, c2) == Update(cs, id, c2)
  {
    var a := Update(Update(cs, id, c1), id, c2);
    var b := Update(cs, id, c2);
    forall i | 0 <= i < |cs| ensures a[i] == b[i] {
    }
  }

  /** One step of `Update`: the head updated, then the updated tail. */
  lemma UpdateCons(cs: seq<Comment>, id: string, content: string)
    requires |cs| > 0
    ensures Update(cs, id, content) == [UpdateOne(cs[0], id, content)] + Update(cs[1..], id, content)
  {
  }

  /** Removing after updating an id forgets the update. */
  lemma {:induction false} RemoveAfterUpdate(cs: seq<Comment>, id: string, content: string)
    ensures Remove(Update(cs, id, content), id) == Remove(cs, id)
  {
    if |cs| > 0 {
      var u := Update(cs, id, content);
      RemoveAfterUpdate(cs[1..], id, content);
      UpdateCons(cs, id, content);
      assert u[0] == UpdateOne(cs[0], id, content) && u[1..] == Update(cs[1..], id, content);
      FilterCons(cs, KeepOther(id));
      FilterCons(u, KeepOther(id));
    }
  }

  /** Updating commutes with reconciliation: the records that survive carry
      the same contents either way. */
  lemma {:induction false} ReconcileUpdateCommute(cs: seq<Comment>, live: set<string>, id: string, content: string)
    ensures Reconcile(Update(cs, id, content), live) == Update(Reconcile(cs, live), id, content)
  {
    if |cs| > 0 {
      var u := Update(cs, id, content);
      ReconcileUpdateCommute(cs[1..], live, id, content);
      UpdateCons(cs, id, content);
      assert u[0] == UpdateOne(cs[0], id, content) && u[1..] == Update(cs[1..], id, content);
      FilterCons(cs, KeepLive(live));
      FilterCons(u, KeepLive(live));
      if cs[0].id in live {
        var r := Reconcile(cs, live);
        assert r[0] == cs[0] && r[1..] == Reconcile(cs[1..], live);
        UpdateCons(r, id, content);
      }
    }
  }

  /** Reconciling twice against the same live ids is reconciling once. */
  lemma ReconcileIdempotent(cs: seq<Comment>, live: set<string>)
    ensures Reconcile(Reconcile(cs, live), live) == Reconcile(cs, live)
  {
    FilterIdempotent(cs, KeepLive(live));
  }

  /** When every record is live, reconciliation changes nothing. */
  lemma ReconcileAllLive(cs: seq<Comment>, live: set<string>)
    requires Ids(cs) <= live
    ensures Reconcile(cs, live) == cs
  {
    forall i | 0 <= i < |cs| ensures KeepLive(live)(cs[i]) {
      assert cs[i] in cs;
    }
    FilterAllKept(cs, KeepLive(live));
  }

  /** A record whose id is empty never survives reconciliation with a
      document: a comment mark with an empty or null id keeps nothing
      alive. */
  lemma EmptyIdNeverLive(cs: seq<Comment>, doc: seq<Span>)
    ensures "" !in Ids(RemoveCommentsWithoutMarks(cs, doc))
  {
  }

  /** Marks whose `commentId` is null or empty, or that are not comment
      marks, keep no record alive. */
  lemma NullMarksKeepNothing(cs: seq<Comment>, doc: seq<Span>)
    requires forall i, m :: 0 <= i < |doc| && m in doc[i].marks && IsCommentMark(m) ==> !Truthy(m.commentId)
    ensures RemoveCommentsWithoutMarks(cs, doc) == []
  {
    var r := RemoveCommentsWithoutMarks(cs, doc);
    if |r| > 0 {
      assert r[0] in r;
      var i :| 0 <= i < |doc| && CarriesId(doc[i], r[0].id);
      assert IsCommentMark(Mark(CommentMarkName, Some(r[0].id)));
    }
  }
}

=== FILE: comment_mark.dfy ===
/**
 The inline comment mark of `packages/headless/src/extensions/comment.ts`.

 The rich-text document is abstracted to a sequence of spans, each carrying
 the marks applied to it and whether it begins a new textblock (paragraph,
 heading, list item, ...); a mark has a type name and, for comment marks, a
 `commentId` attribute that may be null. Positions are the boundaries
 between spans, and the selection is a pair of them; a position inside a
 text node is the boundary between two spans with the same marks, and the
 boundary before a span that begins a textblock is the start of that
 block. The
 editor library's queries and commands that the extension uses
 (`isActive`, `getAttributes`, `setMark`, `unsetMark`, `$from.marks()`)
 are given span-level definitions here.
 */
module CommentMark {
  import opened Base

  /** The type name under which the extension registers its mark. */
  const CommentMarkName := "comment"

  /** Prefix of every generated comment id. */
  const IdPrefix := "c-"

  /** The value the `commentId` attribute takes when none is supplied. */
  const DefaultCommentId: Option<string> := None

  datatype Mark = Mark(name: string, commentId: Option<string>)

  /** A run of text with its marks. `startsBlock` says the span is the
      first of a textblock other than the document's first, which always
      begins one. */
  datatype Span = Span(text: string, marks: seq<Mark>, startsBlock: bool)

  /** Spans `[from, to)`; `from == to` is a collapsed cursor at the
      boundary just before span `from`. */
  datatype Selection = Selection(from: nat, to: nat)

  datatype Editor = Editor(doc: seq<Span>, sel: Selection)

  predicate ValidEditor(e: Editor) {
    e.sel.from <= e.sel.to <= |e.doc|
  }

  predicate IsCommentMark(m: Mark) {
    m.name == CommentMarkName
  }

  predicate NotCommentMark(m: Mark) {
    !IsCommentMark(m)
  }

  predicate HasCommentMark(s: Span) {
    exists m :: m in s.marks && IsCommentMark(m)
  }

  /** Span `i` is changed by a mark command: it lies inside a non-empty
      selection. A collapsed selection only touches the stored marks for
      the next input, which the model leaves out. */
  predicate Covered(e: Editor, i: int) {
    e.sel.from <= i < e.sel.to
  }

  /** The selection starts a textblock, so `$from.marks()` looks at the
      node after the position rather than the one before. */
  predicate ReadsAfter(e: Editor) {
    e.sel.from == 0 || (e.sel.from < |e.doc| && e.doc[e.sel.from].startsBlock)
  }

  /** Span `i` is the one whose marks `$from.marks()` reports: the span
      before the position, or the span after it when the position starts a
      textblock. The comment mark is inclusive (the extension leaves
      `inclusive` at its default), so the marks of the span before are
      reported whole. */
  predicate AtCursor(e: Editor, i: int) {
    0 <= i < |e.doc| && i == if ReadsAfter(e) then e.sel.from else e.sel.from - 1
  }

  /** Span `i` is consulted by the queries: the selected spans, or the span
      at the cursor when the selection is collapsed. */
  predicate Queried(e: Editor, i: int) {
    0 <= i < |e.doc| &&
    if e.sel.from < e.sel.to then Covered(e, i) else AtCursor(e, i)
  }

  /** First index and one-past-last index of the queried spans. */
  function QueryRange(e: Editor): (r: (nat, nat))
    requires ValidEditor(e)
    ensures r.0 <= r.1 <= |e.doc|
    ensures forall i :: r.0 <= i < r.1 <==> Queried(e, i)
  {
    if e.sel.from < e.sel.to then (e.sel.from, e.sel.to)
    else if |e.doc| == 0 then (0, 0)
    else if ReadsAfter(e) then (e.sel.from, e.sel.from + 1)
    else (e.sel.from - 1, e.sel.from)
  }

  /** All marks of a run of spans, in document order (`nodesBetween`). */
  function MarksOf(spans: seq<Span>): (ms: seq<Mark>)
    ensures forall m :: m in ms <==> exists i :: 0 <= i < |spans| && m in spans[i].marks
  {
    if |spans| == 0 then []
    else
      var rest := MarksOf(spans[1..]);
      assert forall i :: 1 <= i < |spans| ==> spans[i] == spans[1..][i - 1];
      spans[0].marks + rest
  }

  /** `$from.marks()`: the marks at the start of the selection, read from
      the span `AtCursor` names; none in an empty paragraph. */
  function MarksAtCursor(e: Editor): (ms: seq<Mark>)
    requires ValidEditor(e)
    ensures forall i :: AtCursor(e, i) ==> ms == e.doc[i].marks
    ensures |e.doc| == 0 ==> ms == []
  {
    if |e.doc| == 0 then []
    else if ReadsAfter(e) then e.doc[e.sel.from].marks
    else e.doc[e.sel.from - 1].marks
  }

  /** `editor.getAttributes("comment").commentId`: the id on the first
      comment mark among the queried spans, `undefined` (None) when there is
      no such mark. */
  function CommentAttr(e: Editor): (id: Option<string>)
    requires ValidEditor(e)
    ensures (forall i :: Queried(e, i) ==> !HasCommentMark(e.doc[i])) ==> id.None?
  {
    var (lo, hi) := QueryRange(e);
    var ms := MarksOf(e.doc[lo..hi]);
    match FindFirst(ms, IsCommentMark)
    case None => None
    case Some(k) =>
      assert ms[k] in ms;
      ms[k].commentId
  }

  /** `editor.isActive("comment")`: some span is queried and every queried
      span carries a comment mark. */
  predicate IsCommentActive(e: Editor) {
    && (exists i :: 0 <= i < |e.doc| && Queried(e, i))
    && (forall i :: 0 <= i < |e.doc| && Queried(e, i) ==> HasCommentMark(e.doc[i]))
  }

  /** What `onSelectionUpdate` does with the `onCommentActivated` option. */
  datatype Activation = NotCalled | Activated(commentId: Option<string>)

  /** `onSelectionUpdate`: calls `onCommentActivated` with the id of the
      first comment mark among `$from.marks()`, and not at all without
      one. */
  function OnSelectionUpdate(e: Editor): (a: Activation)
    requires ValidEditor(e)
    ensures a.NotCalled? <==> forall m :: m in MarksAtCursor(e) ==> !IsCommentMark(m)
    ensures a.Activated? ==>
      exists k :: (0 <= k < |MarksAtCursor(e)| && MarksAtCursor(e)[k] == Mark(CommentMarkName, a.commentId)
        && forall j :: 0 <= j < k ==> !IsCommentMark(MarksAtCursor(e)[j]))
  {
    var ms := MarksAtCursor(e);
    match FindFirst(ms, IsCommentMark)
    case None =>
      assert forall m :: m in ms ==> !IsCommentMark(m) by {
        forall m | m in ms ensures !IsCommentMark(m) {
          var j :| 0 <= j < |ms| && ms[j] == m;
        }
      }
      NotCalled
    case Some(k) => Activated(ms[k].commentId)
  }

  /** Two paragraphs, "a" commented with "c-1" and "b" without marks: a
      cursor at the start of the second paragraph reads "b" and does not
      activate anything, while the same boundary inside one paragraph
      reads "a". */
  lemma BlockStartReadsNextSpan()
    ensures var a := Span("a", [Mark(CommentMarkName, Some("c-1"))], true);
      && OnSelectionUpdate(Editor([a, Span("b", [], true)], Selection(1, 1))) == NotCalled
      && OnSelectionUpdate(Editor([a, Span("b", [], false)], Selection(1, 1))) == Activated(Some("c-1"))
  {
    var a := Span("a", [Mark(CommentMarkName, Some("c-1"))], true);
    assert MarksAtCursor(Editor([a, Span("b", [], false)], Selection(1, 1)))[0] == Mark(CommentMarkName, Some("c-1"));
  }

  /** The owner's `onCommentActivated` handler: the extension's default
      does nothing; the editor page stores the id as the active comment. */
  datatype ActivationHandler = DefaultNoOp | SetActiveCommentId

  /** Effect of an activation on the owner's active comment id. */
  function HandleActivation(h: ActivationHandler, active: Option<string>, a: Activation): (r: Option<string>)
    ensures h == DefaultNoOp || a.NotCalled? ==> r == active
    ensures h == SetActiveCommentId && a.Activated? ==> r == a.commentId
  {
    match (h, a)
    case (SetActiveCommentId, Activated(id)) => id
    case _ => active
  }

  /** The marks of a span after `setMark("comment", {commentId: id})`:
      any earlier comment mark is replaced by the new one. */
  function WithComment(marks: seq<Mark>, id: Option<string>): seq<Mark> {
    Filter(marks, NotCommentMark) + [Mark(CommentMarkName, id)]
  }

  /** `setComment({commentId: id})`: every covered span gets exactly one
      comment mark, carrying `id` (None is null). */
  function SetComment(e: Editor, id: Option<string>): (r: Editor)
    ensures r.sel == e.sel && |r.doc| == |e.doc|
    ensures forall i :: 0 <= i < |e.doc| && !Covered(e, i) ==> r.doc[i] == e.doc[i]
    ensures forall i :: 0 <= i < |e.doc| && Covered(e, i) ==>
      && r.doc[i].text == e.doc[i].text && r.doc[i].startsBlock == e.doc[i].startsBlock
      && (forall m :: m in r.doc[i].marks && IsCommentMark(m) <==> m == Mark(CommentMarkName, id))
      && (forall m :: NotCommentMark(m) ==> (m in r.doc[i].marks <==> m in e.doc[i].marks))
  {
    var doc := seq(|e.doc|, i requires 0 <= i < |e.doc| =>
      if Covered(e, i) then e.doc[i].(marks := WithComment(e.doc[i].marks, id)) else e.doc[i]);
    Editor(doc, e.sel)
  }

  /** `unsetComment`: every covered span loses its comment marks. */
  function UnsetComment(e: Editor): (r: Editor)
    ensures r.sel == e.sel && |r.doc| == |e.doc|
    ensures forall i :: 0 <= i < |e.doc| && !Covered(e, i) ==> r.doc[i] == e.doc[i]
    ensures forall i :: 0 <= i < |e.doc| && Covered(e, i) ==>
      && r.doc[i].text == e.doc[i].text && r.doc[i].startsBlock == e.doc[i].startsBlock
      && !HasCommentMark(r.doc[i])
      && (forall m :: NotCommentMark(m) ==> (m in r.doc[i].marks <==> m in e.doc[i].marks))
  {
    var doc := seq(|e.doc|, i requires 0 <= i < |e.doc| =>
      if Covered(e, i) then e.doc[i].(marks := Filter(e.doc[i].marks, NotCommentMark)) else e.doc[i]);
    Editor(doc, e.sel)
  }

  /** The `commentId` a covered span's comment mark carries after
      `setMark("comment", attributes)`: the given id; without attributes,
      the id of the comment mark the span already has (its attributes are
      merged with none), or else the attribute's null default. */
  function MergedId(marks: seq<Mark>, attrs: Option<Option<string>>): (id: Option<string>)
    ensures attrs.Some? ==> id == attrs.value
    ensures attrs.None? && (forall m :: m in marks ==> !IsCommentMark(m)) ==> id == DefaultCommentId
    ensures attrs.None? && (exists m :: m in marks && IsCommentMark(m)) ==> Mark(CommentMarkName, id) in marks
  {
    match attrs
    case Some(id) => id
    case None =>
      match FindLast(marks, IsCommentMark)
      case None => DefaultCommentId
      case Some(k) =>
        assert marks[k] == Mark(CommentMarkName, marks[k].commentId);
        marks[k].commentId
  }

  /** `setComment(attributes)` with the attributes optional: with an id it
      is `SetComment`; without, a span that already has a comment mark
      keeps its id and any other covered span gets the null default. */
  function SetCommentAttrs(e: Editor, attrs: Option<Option<string>>): (r: Editor)
    ensures attrs.Some? ==> r == SetComment(e, attrs.value)
    ensures r.sel == e.sel && |r.doc| == |e.doc|
    ensures forall i :: 0 <= i < |e.doc| && !Covered(e, i) ==> r.doc[i] == e.doc[i]
    ensures forall i :: 0 <= i < |e.doc| && Covered(e, i) ==>
      && r.doc[i].text == e.doc[i].text && r.doc[i].startsBlock == e.doc[i].startsBlock
      && (forall m :: m in r.doc[i].marks && IsCommentMark(m) <==> m == Mark(CommentMarkName, MergedId(e.doc[i].marks, attrs)))
      && (forall m :: NotCommentMark(m) ==> (m in r.doc[i].marks <==> m in e.doc[i].marks))
  {
    var doc := seq(|e.doc|, i requires 0 <= i < |e.doc| =>
      if Covered(e, i) then e.doc[i].(marks := WithComment(e.doc[i].marks, MergedId(e.doc[i].marks, attrs)))
      else e.doc[i]);
    var r := Editor(doc, e.sel);
    assert attrs.Some? ==> r.doc == SetComment(e, attrs.value).doc;
    r
  }

  /** The mark test of `isActive("comment", attributes)`: any comment mark
      when no attributes are given (`attrs` None), otherwise one whose id
      equals the given one. */
  predicate MatchesAttrs(m: Mark, attrs: Option<Option<string>>) {
    IsCommentMark(m) && (attrs.None? || m.commentId == attrs.value)
  }

  /** `isActive("comment", attributes)`: some span is queried and every
      queried span carries a matching comment mark. */
  predicate IsCommentActiveWith(e: Editor, attrs: Option<Option<string>>) {
    && (exists i :: 0 <= i < |e.doc| && Queried(e, i))
    && (forall i :: 0 <= i < |e.doc| && Queried(e, i) ==>
          exists m :: m in e.doc[i].marks && MatchesAttrs(m, attrs))
  }

  /** The `toggleComment(attributes)` command (`toggleMark`): unset the
      comment mark when one matching the attributes is active, otherwise
      set it with those attributes. */
  function ToggleComment(e: Editor, attrs: Option<Option<string>>): (r: Editor)
    ensures IsCommentActiveWith(e, attrs) ==> r == UnsetComment(e)
    ensures !IsCommentActiveWith(e, attrs) ==> r == SetCommentAttrs(e, attrs)
  {
    if IsCommentActiveWith(e, attrs) then UnsetComment(e) else SetCommentAttrs(e, attrs)
  }

  /** Without attributes, the command's test is the one the comment button
      uses. */
  lemma ActiveWithoutAttrs(e: Editor)
    ensures IsCommentActiveWith(e, None) <==> IsCommentActive(e)
  {
    if IsCommentActive(e) {
      forall i | 0 <= i < |e.doc| && Queried(e, i)
        ensures exists m :: m in e.doc[i].marks && MatchesAttrs(m, None)
      {
        var m :| m in e.doc[i].marks && IsCommentMark(m);
        assert MatchesAttrs(m, None);
      }
    }
    if IsCommentActiveWith(e, None) {
      forall i | 0 <= i < |e.doc| && Queried(e, i)
        ensures HasCommentMark(e.doc[i])
      {
        var m :| m in e.doc[i].marks && MatchesAttrs(m, None);
      }
    }
  }

  /** `removeComment(editor)`: reads the comment id under the selection;
      when it is not truthy, returns `undefined` and leaves the document
      alone, otherwise unsets the comment mark and returns that id. */
  function RemoveComment(e: Editor): (r: (Editor, Option<string>))
    requires ValidEditor(e)
    ensures !Truthy(CommentAttr(e)) ==> r == (e, None)
    ensures Truthy(CommentAttr(e)) ==> r.1 == CommentAttr(e) && r.0 == UnsetComment(e)
  {
    var id := CommentAttr(e);
    if !Truthy(id) then (e, None) else (UnsetComment(e), id)
  }

  /** The id `addComment` generates from a fresh random UUID. */
  function NewCommentId(uuid: string): (id: string)
    ensures IsPrefix(IdPrefix, id) && |id| == |IdPrefix| + |uuid|
    ensures id[|IdPrefix|..] == uuid
    ensures Truthy(Some(id))
  {
    IdPrefix + uuid
  }

  /** `addComment(editor)`: sets a comment mark with a newly generated id
      on the selection and returns that same id. The random UUID (section
      4.4 of RFC 4122) is the parameter `uuid`. */
  function AddComment(e: Editor, uuid: string): (r: (Editor, string))
    ensures IsPrefix(IdPrefix, r.1)
    ensures r.0 == SetComment(e, Some(r.1))
  {
    var id := NewCommentId(uuid);
    (SetComment(e, Some(id)), id)
  }

  /** Ids built from different UUIDs differ, so a fresh UUID gives a fresh
      comment id. */
  lemma NewCommentIdInjective(u1: string, u2: string)
    ensures NewCommentId(u1) == NewCommentId(u2) <==> u1 == u2
  {
    if NewCommentId(u1) == NewCommentId(u2) {
      assert u1 == NewCommentId(u1)[|IdPrefix|..];
    }
  }

  /** After `WithComment` the new comment mark is the last mark and the
      only comment mark. */
  lemma WithCommentLastMark(marks: seq<Mark>, id: Option<string>)
    ensures var w := WithComment(marks, id);
      |w| > 0 && w[|w| - 1] == Mark(CommentMarkName, id)
      && FindFirst(w, IsCommentMark) == Some(|w| - 1)
  {
    var w := WithComment(marks, id);
    var kept := Filter(marks, NotCommentMark);
    forall j | 0 <= j < |kept| ensures !IsCommentMark(w[j]) {
      assert w[j] == kept[j] && kept[j] in kept;
    }
  }

  /** A span changed by `SetComment` ends with the new comment mark. */
  lemma SetCommentLastMark(e: Editor, id: Option<string>, i: nat)
    requires i < |e.doc| && Covered(e, i)
    ensures var marks := SetComment(e, id).doc[i].marks;
      |marks| > 0 && marks[|marks| - 1] == Mark(CommentMarkName, id)
      && FindFirst(marks, IsCommentMark) == Some(|marks| - 1)
  {
    assert SetComment(e, id).doc[i].marks == WithComment(e.doc[i].marks, id);
    WithCommentLastMark(e.doc[i].marks, id);
  }

  /** With a non-empty selection, adding a comment makes the comment mark
      active over the whole selection. */
  lemma AddThenActive(e: Editor, uuid: string)
    requires ValidEditor(e) && e.sel.from < e.sel.to
    ensures IsCommentActive(AddComment(e, uuid).0)
  {
    var (e', id) := AddComment(e, uuid);
    assert Queried(e', e.sel.from);
    forall i | 0 <= i < |e'.doc| && Queried(e', i)
      ensures HasCommentMark(e'.doc[i])
    {
      SetCommentLastMark(e, Some(id), i);
      var marks := e'.doc[i].marks;
      assert marks[|marks| - 1] in marks;
    }
  }

  /** A cursor reading a span whose only comment mark is its last mark
      activates that mark's id. */
  lemma ReadsLastCommentMark(c: Editor, i: int, id: Option<string>)
    requires ValidEditor(c) && AtCursor(c, i)
    requires |c.doc[i].marks| > 0 && c.doc[i].marks[|c.doc[i].marks| - 1] == Mark(CommentMarkName, id)
    requires FindFirst(c.doc[i].marks, IsCommentMark) == Some(|c.doc[i].marks| - 1)
    ensures OnSelectionUpdate(c) == Activated(id)
  {
    assert MarksAtCursor(c) == c.doc[i].marks;
  }

  /** After `SetComment`, a cursor whose `$from.marks()` reads a covered
      span activates the id that was set. */
  lemma CursorReadsSetComment(e: Editor, id: Option<string>, k: nat, i: int)
    requires ValidEditor(e) && Covered(e, i) && k <= |e.doc|
    requires AtCursor(SetComment(e, id).(sel := Selection(k, k)), i)
    ensures OnSelectionUpdate(SetComment(e, id).(sel := Selection(k, k))) == Activated(id)
  {
    SetCommentLastMark(e, id, i);
    ReadsLastCommentMark(SetComment(e, id).(sel := Selection(k, k)), i, id);
  }

  /** With a non-empty selection, reading the comment attribute back after
      adding a comment gives the generated id. */
  lemma AddThenAttr(e: Editor, uuid: string)
    requires ValidEditor(e) && e.sel.from < e.sel.to
    ensures CommentAttr(AddComment(e, uuid).0) == Some(AddComment(e, uuid).1)
  {
    var (e', id) := AddComment(e, uuid);
    var lo := e.sel.from;
    SetCommentLastMark(e, Some(id), lo);
    var spans := e'.doc[lo..e.sel.to];
    assert QueryRange(e') == (lo, e.sel.to);
    assert spans[0] == e'.doc[lo];
    assert MarksOf(spans) == e'.doc[lo].marks + MarksOf(spans[1..]);
    FindFirstExtend(e'.doc[lo].marks, MarksOf(spans[1..]), IsCommentMark);
  }

  /** With a non-empty selection, reading the comment attribute back after
      adding a comment gives the generated id, and a cursor anywhere whose
      `$from.marks()` reads a span of the commented range activates it. */
  lemma AddThenQuery(e: Editor, uuid: string)
    requires ValidEditor(e) && e.sel.from < e.sel.to
    ensures var (e', id) := AddComment(e, uuid);
      && CommentAttr(e') == Some(id)
      && forall k: nat, i :: k <= |e.doc| && AtCursor(e'.(sel := Selection(k, k)), i) && e.sel.from <= i < e.sel.to ==>
           OnSelectionUpdate(e'.(sel := Selection(k, k))) == Activated(Some(id))
  {
    var (e', id) := AddComment(e, uuid);
    AddThenAttr(e, uuid);
    forall k: nat, i | k <= |e.doc| && AtCursor(e'.(sel := Selection(k, k)), i) && e.sel.from <= i < e.sel.to
      ensures OnSelectionUpdate(e'.(sel := Selection(k, k))) == Activated(Some(id))
    {
      CursorReadsSetComment(e, Some(id), k, i);
    }
  }

  /** Selection activation right after adding a comment, with the selection
      still in place: when the selection starts a textblock, `$from.marks()`
      reads the first commented span and the new id is activated; otherwise
      it reads the untouched span before the selection, so activation is
      what it was before, and without a comment there the callback is not
      called. */
  lemma AddActivationAtSelection(e: Editor, uuid: string)
    requires ValidEditor(e) && e.sel.from < e.sel.to
    ensures ReadsAfter(e) ==> OnSelectionUpdate(AddComment(e, uuid).0) == Activated(Some(AddComment(e, uuid).1))
    ensures !ReadsAfter(e) ==> OnSelectionUpdate(AddComment(e, uuid).0) == OnSelectionUpdate(e)
    ensures !ReadsAfter(e) && (forall m :: m in e.doc[e.sel.from - 1].marks ==> !IsCommentMark(m)) ==>
      OnSelectionUpdate(AddComment(e, uuid).0) == NotCalled
  {
    var (e', id) := AddComment(e, uuid);
    if ReadsAfter(e) {
      assert AtCursor(e', e.sel.from) by {
        assert ReadsAfter(e');
      }
      SetCommentLastMark(e, Some(id), e.sel.from);
      ReadsLastCommentMark(e', e.sel.from, Some(id));
    } else {
      assert e'.doc[e.sel.from - 1] == e.doc[e.sel.from - 1];
      assert AtCursor(e', e.sel.from - 1) && AtCursor(e, e.sel.from - 1) by {
        assert !ReadsAfter(e');
      }
      assert MarksAtCursor(e') == MarksAtCursor(e);
    }
  }

  /** Setting a comment without attributes over spans that carry no comment
      mark leaves the null default on the new mark, and a cursor whose
      `$from.marks()` reads a span of the range reports that null. */
  lemma DefaultIdIsNull(e: Editor)
    requires ValidEditor(e)
    requires forall i :: e.sel.from <= i < e.sel.to ==> !HasCommentMark(e.doc[i])
    ensures var e' := SetCommentAttrs(e, None);
      forall k: nat, i :: k <= |e.doc| && AtCursor(e'.(sel := Selection(k, k)), i) && e.sel.from <= i < e.sel.to ==>
        OnSelectionUpdate(e'.(sel := Selection(k, k))) == Activated(None)
  {
    var e' := SetCommentAttrs(e, None);
    forall k: nat, i | k <= |e.doc| && AtCursor(e'.(sel := Selection(k, k)), i) && e.sel.from <= i < e.sel.to
      ensures OnSelectionUpdate(e'.(sel := Selection(k, k))) == Activated(None)
    {
      assert forall m :: m in e.doc[i].marks ==> !IsCommentMark(m) by {
        assert !HasCommentMark(e.doc[i]);
      }
      assert MergedId(e.doc[i].marks, None) == None;
      assert e'.doc[i] == SetComment(e, None).doc[i];
      SetCommentLastMark(e, None, i);
    }
  }

  /** Setting a comment without attributes keeps the id of the comment mark
      a covered span already carries, and a cursor whose `$from.marks()`
      reads that span still reports it. */
  lemma DefaultKeepsExistingId(e: Editor, i: nat, x: Option<string>)
    requires ValidEditor(e) && e.sel.from <= i < e.sel.to
    requires Mark(CommentMarkName, x) in e.doc[i].marks
    requires forall m :: m in e.doc[i].marks && IsCommentMark(m) ==> m == Mark(CommentMarkName, x)
    ensures var e' := SetCommentAttrs(e, None);
      forall k: nat :: k <= |e.doc| && AtCursor(e'.(sel := Selection(k, k)), i) ==>
        OnSelectionUpdate(e'.(sel := Selection(k, k))) == Activated(x)
  {
    var e' := SetCommentAttrs(e, None);
    assert IsCommentMark(Mark(CommentMarkName, x));
    assert MergedId(e.doc[i].marks, None) == x;
    assert e'.doc[i] == SetComment(e, x).doc[i];
    SetCommentLastMark(e, x, i);
  }
}

=== FILE: comment_selector.dfy ===
/**
 The comment button of the bubble menu
 (`apps/web/components/tailwind/selectors/comment-selector.tsx`) and its
 wiring to the editor page's comment list: one press removes the comment
 mark under the selection when one is active, and adds a fresh one
 otherwise, reporting to exactly one of the two owner callbacks.
 */
module CommentSelector {
  import opened Base
  import opened CommentMark
  import CommentList

  /** A call of one of the owner's callbacks. `onRemoveComment` is typed
      as taking a string, but receives `undefined` (None) when the mark
      under the selection has no truthy id. */
  datatype Callback = OnAddComment(id: string) | OnRemoveComment(removed: Option<string>)

  /** `toggleComment(editor)`: the new editor state and the callbacks
      invoked, in order. The fresh UUID is the parameter `uuid`. */
  function Toggle(e: Editor, uuid: string): (r: (Editor, seq<Callback>))
    requires ValidEditor(e)
    ensures |r.1| == 1
    ensures IsCommentActive(e) ==> r.1[0].OnRemoveComment? && r.0 == RemoveComment(e).0 && r.1[0].removed == RemoveComment(e).1
    ensures !IsCommentActive(e) ==> r.1[0].OnAddComment? && r.0 == AddComment(e, uuid).0 && r.1[0].id == NewCommentId(uuid)
  {
    if IsCommentActive(e) then
      var (e', id) := RemoveComment(e);
      (e', [OnRemoveComment(id)])
    else
      var (e', id) := AddComment(e, uuid);
      (e', [OnAddComment(id)])
  }

  /** The editor page's handlers (`onAddComment={addComment}`,
      `onRemoveComment={removeComment}`) applied to its comment list.
      Removing `undefined` compares it against string ids, so it keeps
      every record. */
  function ApplyCallback(cs: seq<CommentList.Comment>, cb: Callback, now: string): (r: seq<CommentList.Comment>)
    ensures cb.OnAddComment? ==> r == CommentList.Add(cs, cb.id, now)
    ensures cb.OnRemoveComment? && cb.removed.Some? ==> r == CommentList.Remove(cs, cb.removed.value)
    ensures cb.OnRemoveComment? && cb.removed.None? ==> r == cs
  {
    match cb
    case OnAddComment(id) => CommentList.Add(cs, id, now)
    case OnRemoveComment(None) => cs
    case OnRemoveComment(Some(id)) => CommentList.Remove(cs, id)
  }

  /** A comment mark whose id is null still counts as active, so the
      remove path runs: the document is left alone and `onRemoveComment`
      receives `undefined`, which leaves the list as it was. */
  lemma NullIdRemovePath(e: Editor, uuid: string, cs: seq<CommentList.Comment>, now: string)
    requires ValidEditor(e) && IsCommentActive(e) && !Truthy(CommentAttr(e))
    ensures Toggle(e, uuid) == (e, [OnRemoveComment(None)])
    ensures ApplyCallback(cs, Toggle(e, uuid).1[0], now) == cs
  {
  }

  /** Adding a comment over a non-empty selection and then reconciling the
      list with the new document keeps the new record: the mark and the
      record are created together. */
  lemma AddSurvivesReconcile(e: Editor, uuid: string, cs: seq<CommentList.Comment>, now: string)
    requires ValidEditor(e) && e.sel.from < e.sel.to && !IsCommentActive(e)
    ensures var (e', calls) := Toggle(e, uuid);
      var cs' := ApplyCallback(cs, calls[0], now);
      CommentList.Comment(NewCommentId(uuid), "", now) in CommentList.RemoveCommentsWithoutMarks(cs', e'.doc)
  {
    var (e', calls) := Toggle(e, uuid);
    var id := NewCommentId(uuid);
    var cs' := ApplyCallback(cs, calls[0], now);
    SetCommentLastMark(e, Some(id), e.sel.from);
    var marks := e'.doc[e.sel.from].marks;
    assert marks[|marks| - 1] in marks;
    assert CommentList.CarriesId(e'.doc[e.sel.from], id);
    assert cs'[|cs|] == CommentList.Comment(id, "", now);
    assert cs'[|cs|] in cs';
  }

  /** Unsetting right after setting restores every span that carried no
      comment mark before. */
  lemma UnsetAfterSet(e: Editor, id: Option<string>)
    requires forall i :: 0 <= i < |e.doc| && Covered(e, i) ==> !HasCommentMark(e.doc[i])
    ensures UnsetComment(SetComment(e, id)) == e
  {
    var e2 := UnsetComment(SetComment(e, id));
    forall i | 0 <= i < |e.doc|
      ensures e2.doc[i] == e.doc[i]
    {
      if Covered(e, i) {
        var marks := e.doc[i].marks;
        forall k | 0 <= k < |marks| ensures NotCommentMark(marks[k]) {
          assert marks[k] in marks;
        }
        FilterAllKept(marks, NotCommentMark);
        FilterConcat(Filter(marks, NotCommentMark), [Mark(CommentMarkName, id)], NotCommentMark);
        assert Filter([Mark(CommentMarkName, id)], NotCommentMark) == [];
      }
    }
  }

  /** Over a non-empty selection with no comment marks, the
      `toggleComment` command sets the mark with the given id, and running
      it again removes it, restoring the document. */
  lemma ToggleCommentTwice(e: Editor, id: Option<string>)
    requires ValidEditor(e) && e.sel.from < e.sel.to
    requires forall i :: e.sel.from <= i < e.sel.to ==> !HasCommentMark(e.doc[i])
    ensures ToggleComment(e, Some(id)) == SetComment(e, id)
    ensures ToggleComment(ToggleComment(e, Some(id)), Some(id)) == e
  {
    assert Queried(e, e.sel.from);
    assert !IsCommentActiveWith(e, Some(id)) by {
      assert !HasCommentMark(e.doc[e.sel.from]);
      assert forall m :: m in e.doc[e.sel.from].marks ==> !MatchesAttrs(m, Some(id));
    }
    var e1 := SetComment(e, id);
    assert IsCommentActiveWith(e1, Some(id)) by {
      assert Queried(e1, e.sel.from);
      forall i | 0 <= i < |e1.doc| && Queried(e1, i)
        ensures exists m :: m in e1.doc[i].marks && MatchesAttrs(m, Some(id))
      {
        SetCommentLastMark(e, id, i);
        var marks := e1.doc[i].marks;
        assert marks[|marks| - 1] in marks && MatchesAttrs(marks[|marks| - 1], Some(id));
      }
    }
    UnsetAfterSet(e, id);
  }

  /** Over a selection with no comment marks, pressing the button twice
      restores the document, and, for a UUID whose id is not yet in the
      list, the list too. */
  lemma ToggleTwiceRestores(e: Editor, u1: string, u2: string, cs: seq<CommentList.Comment>, now: string)
    requires ValidEditor(e) && e.sel.from < e.sel.to
    requires forall i :: e.sel.from <= i < e.sel.to ==> !HasCommentMark(e.doc[i])
    requires NewCommentId(u1) !in CommentList.Ids(cs)
    ensures var (e1, calls1) := Toggle(e, u1);
      var (e2, calls2) := Toggle(e1, u2);
      && e2 == e
      && calls2 == [OnRemoveComment(Some(NewCommentId(u1)))]
      && ApplyCallback(ApplyCallback(cs, calls1[0], now), calls2[0], now) == cs
  {
    var id := NewCommentId(u1);
    assert !IsCommentActive(e) by {
      assert Queried(e, e.sel.from);
    }
    var e1 := SetComment(e, Some(id));
    assert Toggle(e, u1) == (e1, [OnAddComment(id)]);
    AddThenActive(e, u1);
    AddThenQuery(e, u1);
    assert RemoveComment(e1) == (UnsetComment(e1), Some(id));
    UnsetAfterSet(e, Some(id));
    assert Toggle(e1, u2) == (e, [OnRemoveComment(Some(id))]);
    CommentList.RemoveAfterAdd(cs, id, now);
  }
}

=== FILE: date_label.dfy ===
/**
 The relative timestamp shown on each comment, `formatDate` in
 `apps/web/lib/utils.ts`: the time alone for today, the time and
 "yesterday" for the previous calendar day, the time with month and day
 for any other day of the current year, and with the year added
 otherwise. Calendar days are proleptic Gregorian dates; the
 locale-formatted pieces (time, "Mon D", "Mon D, YYYY") are inputs.
 */
module DateLabel {

  datatype Day = Day(year: int, month: int, day: int)

  predicate IsLeapYear(y: int) {
    (y % 4 == 0 && y % 100 != 0) || y % 400 == 0
  }

  function DaysInMonth(y: int, m: int): (n: int)
    requires 1 <= m <= 12
    ensures 28 <= n <= 31
  {
    if m == 2 then (if IsLeapYear(y) then 29 else 28)
    else if m == 4 || m == 6 || m == 9 || m == 11 then 30
    else 31
  }

  predicate ValidDay(d: Day) {
    1 <= d.month <= 12 && 1 <= d.day <= DaysInMonth(d.year, d.month)
  }

  /** The day before `d` (`setDate(getDate() - 1)`), rolling back over
      month and year ends. */
  function PrevDay(d: Day): (p: Day)
    requires ValidDay(d)
    ensures ValidDay(p) && p != d
    ensures p.year == d.year || (p.year == d.year - 1 && p.month == 12 && p.day == 31 && d.month == 1 && d.day == 1)
  {
    if d.day > 1 then Day(d.year, d.month, d.day - 1)
    else if d.month > 1 then Day(d.year, d.month - 1, DaysInMonth(d.year, d.month - 1))
    else Day(d.year - 1, 12, 31)
  }

  /** The day after `d`. */
  function NextDay(d: Day): (n: Day)
    requires ValidDay(d)
    ensures ValidDay(n)
  {
    if d.day < DaysInMonth(d.year, d.month) then Day(d.year, d.month, d.day + 1)
    else if d.month < 12 then Day(d.year, d.month + 1, 1)
    else Day(d.year + 1, 1, 1)
  }

  /** `PrevDay` and `NextDay` undo each other on valid days. */
  lemma PrevNextInverse(d: Day)
    requires ValidDay(d)
    ensures NextDay(PrevDay(d)) == d
    ensures PrevDay(NextDay(d)) == d
  {
  }

  /** The branch `formatDate` takes. */
  datatype Branch = Today | Yesterday | ThisYear | OtherYear

  /** The branches are tried in order: same day, previous day, same year. */
  function Classify(date: Day, now: Day): (b: Branch)
    requires ValidDay(now)
    ensures b == Today <==> date == now
    ensures b == Yesterday <==> date != now && date == PrevDay(now)
    ensures b == ThisYear <==> date != now && date != PrevDay(now) && date.year == now.year
    ensures b == OtherYear <==> date != now && date != PrevDay(now) && date.year != now.year
  {
    if date == now then Today
    else if date == PrevDay(now) then Yesterday
    else if date.year == now.year then ThisYear
    else OtherYear
  }

  /** The locale-formatted pieces of the date being labelled. */
  datatype Formats = Formats(time: string, monthDay: string, monthDayYear: string)

  function FormatDate(date: Day, now: Day, f: Formats): (shown: string)
    requires ValidDay(now)
    ensures |shown| >= |f.time| && shown[..|f.time|] == f.time
    ensures var rest := shown[|f.time|..];
      match Classify(date, now)
      case Today => rest == ""
      case Yesterday => rest == " yesterday"
      case ThisYear => rest == " " + f.monthDay
      case OtherYear => rest == " " + f.monthDayYear
  {
    match Classify(date, now)
    case Today => f.time
    case Yesterday => f.time + " yesterday"
    case ThisYear => f.time + " " + f.monthDay
    case OtherYear => f.time + " " + f.monthDayYear
  }

  /** On 1 January, a date on 31 December of the year before is labelled
      "yesterday" and not given a year, because the yesterday branch is
      tried before the year comparison. */
  lemma NewYearsEveIsYesterday(y: int, f: Formats)
    ensures FormatDate(Day(y - 1, 12, 31), Day(y, 1, 1), f) == f.time + " yesterday"
  {
  }

  /** The day before today is "yesterday" even across a month end. */
  lemma YesterdayAcrossMonths(now: Day, f: Formats)
    requires ValidDay(now) && now.day == 1 && now.month > 1
    ensures FormatDate(Day(now.year, now.month - 1, DaysInMonth(now.year, now.month - 1)), now, f)
      == f.time + " yesterday"
  {
  }

  /** A date in an earlier year other than New Year's Eve before a 1
      January "now" always carries the year. */
  lemma EarlierYearCarriesYear(date: Day, now: Day, f: Formats)
    requires ValidDay(now) && date.year < now.year
    requires !(now.month == 1 && now.day == 1 && date == Day(now.year - 1, 12, 31))
    ensures FormatDate(date, now, f) == f.time + " " + f.monthDayYear
  {
  }
}

=== FILE: editor_session.dfy ===
/**
 The editor page's own state around the comment list
 (`apps/web/components/tailwind/advanced-editor.tsx`): loading the list
 once at mount, marking the document unsaved and reconciling the list on
 every editor update, and the two debounced saves. Timers are abstracted
 to "a save is pending" flags; local storage is a map from keys to the
 stored comment lists.
 */
module EditorSession {
  import opened Base
  import opened CommentMark
  import opened CommentList

  /** The local-storage key holding the comment list. */
  const CommentsKey := "comments"

  /** Local storage, for the keys that hold comment lists. */
  type Store = map<string, seq<Comment>>

  datatype SaveStatus = Saved | Unsaved

  /** `comments`, `saveStatus`, and whether each debounced save is
      scheduled (`debouncedUpdates`, `debouncedCommentSave`). */
  datatype Session = Session(
    comments: seq<Comment>,
    status: SaveStatus,
    contentSavePending: bool,
    commentSavePending: bool)

  /** The comment half of the mount effect: the stored list when the key
      is present, otherwise the empty list. */
  function LoadComments(store: Store): (cs: seq<Comment>)
    ensures CommentsKey !in store ==> cs == []
    ensures CommentsKey in store ==> cs == store[CommentsKey]
  {
    if CommentsKey in store then store[CommentsKey] else []
  }

  /** The page after mount: status starts as "Saved", the list is loaded,
      and the change of `comments` schedules a comment save. */
  function Open(store: Store): (s: Session)
    ensures s.comments == LoadComments(store) && s.status == Saved
    ensures !s.contentSavePending && s.commentSavePending
  {
    Session(LoadComments(store), Saved, false, true)
  }

  /** Every change of `comments` schedules the comment save. */
  function SetComments(s: Session, cs: seq<Comment>): (r: Session)
    ensures r.comments == cs && r.commentSavePending
    ensures r.status == s.status && r.contentSavePending == s.contentSavePending
  {
    s.(comments := cs, commentSavePending := true)
  }

  function OnAddComment(s: Session, id: string, now: string): (r: Session)
    ensures r.comments == Add(s.comments, id, now) && r.commentSavePending
  {
    SetComments(s, Add(s.comments, id, now))
  }

  function OnRemoveComment(s: Session, id: string): (r: Session)
    ensures r.comments == Remove(s.comments, id) && r.commentSavePending
  {
    SetComments(s, Remove(s.comments, id))
  }

  function OnUpdateComment(s: Session, id: string, content: string): (r: Session)
    ensures r.comments == Update(s.comments, id, content) && r.commentSavePending
  {
    SetComments(s, Update(s.comments, id, content))
  }

  /** The editor's `onUpdate`: schedule the content save, mark the page
      "Unsaved" and reconcile the list with the document. */
  function OnEditorUpdate(s: Session, doc: seq<Span>): (r: Session)
    ensures r.status == Unsaved && r.contentSavePending && r.commentSavePending
    ensures r.comments == RemoveCommentsWithoutMarks(s.comments, doc)
  {
    SetComments(s, RemoveCommentsWithoutMarks(s.comments, doc)).(
      contentSavePending := true, status := Unsaved)
  }

  /** The content save firing: the document is written (left out) and the
      page reads "Saved" again. */
  function FireContentSave(s: Session): (r: Session)
    requires s.contentSavePending
    ensures r.status == Saved && !r.contentSavePending
    ensures r.comments == s.comments && r.commentSavePending == s.commentSavePending
  {
    s.(status := Saved, contentSavePending := false)
  }

  /** The comment save firing: the current list is written under the
      comments key; nothing else in storage changes. */
  function FireCommentSave(s: Session, store: Store): (r: (Session, Store))
    requires s.commentSavePending
    ensures !r.0.commentSavePending && r.0.comments == s.comments && r.0.status == s.status
    ensures CommentsKey in r.1 && r.1[CommentsKey] == s.comments
    ensures forall k :: k != CommentsKey ==> (k in r.1 <==> k in store) && (k in store ==> r.1[k] == store[k])
  {
    (s.(commentSavePending := false), store[CommentsKey := s.comments])
  }

  /** Saving the comments and opening the page again gives back the same
      list: same ids, contents, timestamps and order. */
  lemma SaveThenLoad(s: Session, store: Store)
    requires s.commentSavePending
    ensures Open(FireCommentSave(s, store).1).comments == s.comments
  {
  }

  /** What can happen to the page after mount: the three comment handlers,
      an editor update, and either debounced save firing. */
  datatype Event =
    | AddEvent(id: string, now: string)
    | RemoveEvent(id: string)
    | UpdateEvent(id: string, content: string)
    | EditorUpdate(doc: seq<Span>)
    | ContentSave
    | CommentSave

  /** One event applied to the page and local storage; a save whose timer
      is not scheduled does not fire. */
  function Step(p: (Session, Store), ev: Event): (r: (Session, Store))
    ensures !ev.ContentSave? && !ev.EditorUpdate? ==>
      r.0.status == p.0.status && r.0.contentSavePending == p.0.contentSavePending
    ensures !ev.CommentSave? ==> r.1 == p.1
    ensures ev.EditorUpdate? ==> r.0.status == Unsaved && r.0.contentSavePending
    ensures ev.ContentSave? ==>
      (r.0.status == Saved && !r.0.contentSavePending) || (r.0 == p.0 && !p.0.contentSavePending)
  {
    match ev
    case AddEvent(id, now) => (OnAddComment(p.0, id, now), p.1)
    case RemoveEvent(id) => (OnRemoveComment(p.0, id), p.1)
    case UpdateEvent(id, content) => (OnUpdateComment(p.0, id, content), p.1)
    case EditorUpdate(doc) => (OnEditorUpdate(p.0, doc), p.1)
    case ContentSave => if p.0.contentSavePending then (FireContentSave(p.0), p.1) else p
    case CommentSave => if p.0.commentSavePending then FireCommentSave(p.0, p.1) else p
  }

  /** The events applied in order. */
  function Run(p: (Session, Store), events: seq<Event>): (Session, Store)
    decreases |events|
  {
    if |events| == 0 then p else Run(Step(p, events[0]), events[1..])
  }

  predicate NoContentSave(events: seq<Event>) {
    forall i :: 0 <= i < |events| ==> !events[i].ContentSave?
  }

  /** An edit leaves the page "Unsaved", with the content save still
      scheduled, through any events in which that save does not fire;
      when it fires the page reads "Saved". */
  lemma {:induction false} UnsavedUntilSave(s: Session, store: Store, doc: seq<Span>, events: seq<Event>)
    requires NoContentSave(events)
    ensures var r := Run((OnEditorUpdate(s, doc), store), events).0;
      r.status == Unsaved && r.contentSavePending && FireContentSave(r).status == Saved
  {
    UnsavedPersists((OnEditorUpdate(s, doc), store), events);
  }

  lemma {:induction false} UnsavedPersists(p: (Session, Store), events: seq<Event>)
    requires p.0.status == Unsaved && p.0.contentSavePending && NoContentSave(events)
    ensures Run(p, events).0.status == Unsaved && Run(p, events).0.contentSavePending
    decreases |events|
  {
    if |events| > 0 {
      assert !events[0].ContentSave?;
      assert NoContentSave(events[1..]) by {
        forall i | 0 <= i < |events[1..]|
          ensures !events[1..][i].ContentSave?
        {
          assert events[1..][i] == events[i + 1];
        }
      }
      UnsavedPersists(Step(p, events[0]), events[1..]);
    }
  }

  /** From mount on, the page reads "Unsaved" exactly while a content save
      is scheduled. */
  lemma {:induction false} StatusTracksContentSave(store: Store, events: seq<Event>)
    ensures var r := Run((Open(store), store), events).0;
      r.status == Unsaved <==> r.contentSavePending
  {
    StatusTracksPreserved((Open(store), store), events);
  }

  lemma {:induction false} StatusTracksPreserved(p: (Session, Store), events: seq<Event>)
    requires p.0.status == Unsaved <==> p.0.contentSavePending
    ensures Run(p, events).0.status == Unsaved <==> Run(p, events).0.contentSavePending
    decreases |events|
  {
    if |events| > 0 {
      StatusTracksPreserved(Step(p, events[0]), events[1..]);
    }
  }

  /** Two editor updates with the same document leave the list as one
      does. */
  lemma RepeatedUpdateStable(s: Session, doc: seq<Span>)
    ensures OnEditorUpdate(OnEditorUpdate(s, doc), doc).comments == OnEditorUpdate(s, doc).comments
  {
    ReconcileIdempotent(s.comments, LiveIds(doc));
  }

  /** Add "c-1", write "hello" into it, and reconcile with a document
      marking "c-1": one record remains, with that content; reconciling
      with a document without comment marks then empties the list. */
  lemma AddUpdateReconcileScenario(store: Store, now: string, doc: seq<Span>, bare: seq<Span>)
    requires CommentsKey !in store
    requires |doc| > 0 && doc[0].marks == [Mark(CommentMarkName, Some("c-1"))]
    requires forall i :: 0 <= i < |bare| ==> bare[i].marks == []
    ensures var s := OnEditorUpdate(OnUpdateComment(OnAddComment(Open(store), "c-1", now), "c-1", "hello"), doc);
      && s.comments == [Comment("c-1", "hello", now)]
      && OnEditorUpdate(s, bare).comments == []
  {
    var s1 := OnAddComment(Open(store), "c-1", now);
    assert s1.comments == [Comment("c-1", "", now)];
    var s2 := OnUpdateComment(s1, "c-1", "hello");
    assert s2.comments == [Comment("c-1", "hello", now)];
    assert CarriesId(doc[0], "c-1");
    ReconcileAllLive(s2.comments, LiveIds(doc));
    var s3 := OnEditorUpdate(s2, doc);
    NullMarksKeepNothing(s3.comments, bare);
  }
}

=== FILE: generate_route.dfy ===
/**
 The `POST /api/generate` handler of `apps/web/app/api/generate/route.ts`:
 in production, an absent OpenAI key makes building the client throw and
 an empty one is rejected with 400; in production
 with both KV settings present, a per-IP rate limiter is consulted and a
 refusal becomes 429 with the limiter's figures in headers; otherwise the
 request body's `option` picks one of two system prompts and a streamed
 chat completion is requested, from a local Ollama server outside
 production. The rate limiter's answer is an input; the completion
 request is the result, not its stream.
 */
module GenerateRoute {
  import opened Base

  /** The environment variables the handler reads. */
  datatype Env = Env(
    nodeEnv: Option<string>,
    openAiKey: Option<string>,
    kvUrl: Option<string>,
    kvToken: Option<string>)

  predicate IsProd(env: Env) {
    env.nodeEnv == Some("production")
  }

  /** What the sliding-window limiter reports for one key. */
  datatype LimitResult = LimitResult(success: bool, limit: nat, remaining: nat, reset: nat)

  /** The JSON body the client sends. */
  datatype Body = Body(prompt: string, option: string)

  datatype Message = Message(role: string, content: string)

  /** The OpenAI client's configuration: `baseUrl` None is the library's
      default endpoint. */
  datatype ClientConfig = ClientConfig(baseUrl: Option<string>, apiKey: Option<string>)

  /** The chat completion the handler asks for; the sampling parameters
      are left out. */
  datatype CompletionRequest = CompletionRequest(
    client: ClientConfig,
    model: string,
    stream: bool,
    messages: seq<Message>)

  datatype Response =
    | TextResponse(status: nat, body: string, headers: seq<(string, string)>)
    | CompletionStream(request: CompletionRequest)
      /** The OpenAI client's constructor throws when it is given no key and
          finds none in `OPENAI_API_KEY` either. */
    | ClientConstructionFailed
      /** `match(option)...run()` throws when neither pattern matches. */
    | NoMatchingPattern(option: string)

  /** The handler's response, and the key it passed to the rate limiter
      (None when the limiter was not consulted). */
  datatype Outcome = Outcome(response: Response, limiterKey: Option<string>)

  const MissingKeyMessage := "Missing OPENAI_API_KEY - make sure to add it to your .env file."
  const LimitMessage := "You have reached your request limit for the day."
  const LimiterKeyPrefix := "novel_ratelimit_"
  const LocalBaseUrl := "http://localhost:11434/v1"
  const LocalApiKey := "ollama"
  const DevModel := "llama2"
  const ProdModel := "gpt-3.5-turbo"

  /** The "continue" system prompt; the source joins its last two
      sentences without a space. */
  const ContinuePrompt :=
    "You are an AI writing assistant that continues existing text based on context from prior text. "
    + "Give more weight/priority to the later characters than the beginning ones. "
    + "Limit your response to no more than 200 characters, but make sure to construct complete sentences."
    + "Use Markdown formatting when appropriate."

  const ImprovePrompt :=
    "Create a digital illustration of an AI assistant, represented as a futuristic robot, sitting at an antique wooden desk in a dimly lit room, surrounded by books and manuscripts. The robot is intently focusing on a glowing holographic display, where it's visibly enhancing and editing a piece of text. The room combines elements of the old world with the future, showcasing the blend of traditional writing with advanced technology. The atmosphere is serene and scholarly, emphasizing the AI's role as a meticulous editor and improver of written content. The image should capture the essence of old meets new, highlighting the AI's task of refining text with precision and creativity, making it more engaging, grammatically correct, and detailed, without exceeding the original text's length significantly."
    + "Use Markdown formatting when appropriate."

  // ---------------------------------------------------------------------
  // Decimal rendering of the header values (`Number.prototype.toString`)

  function DigitChar(d: nat): (c: char)
    requires d < 10
    ensures '0' <= c <= '9' && c as int - '0' as int == d
  {
    ('0' as int + d) as char
  }

  function DigitValue(c: char): (d: nat)
    requires '0' <= c <= '9'
    ensures d < 10 && DigitChar(d) == c
  {
    (c as int - '0' as int) as nat
  }

  predicate IsDigits(s: string) {
    |s| > 0 && forall i :: 0 <= i < |s| ==> '0' <= s[i] <= '9'
  }

  /** The decimal digits of `n`, most significant first, with no leading
      zero. */
  function NatToString(n: nat): (s: string)
    ensures IsDigits(s)
    ensures |s| > 1 ==> s[0] != '0'
    decreases n
  {
    if n < 10 then [DigitChar(n)] else NatToString(n / 10) + [DigitChar(n % 10)]
  }

  /** Reads a decimal numeral; None for anything else. */
  function ParseNat(s: string): (r: Option<nat>)
    ensures r.Some? <==> IsDigits(s)
    decreases |s|
  {
    if !IsDigits(s) then None
    else if |s| == 1 then Some(DigitValue(s[0]))
    else
      assert IsDigits(s[..|s| - 1]);
      Some(ParseNat(s[..|s| - 1]).value * 10 + DigitValue(s[|s| - 1]))
  }

  /** Reading a rendered number gives the number back. */
  lemma {:induction false} ParseRendered(n: nat)
    ensures ParseNat(NatToString(n)) == Some(n)
    decreases n
  {
    var s := NatToString(n);
    if n < 10 {
      assert DigitValue(s[0]) == n;
    } else {
      ParseRendered(n / 10);
      assert s[..|s| - 1] == NatToString(n / 10);
      assert s[|s| - 1] == DigitChar(n % 10);
    }
  }

  /** Rendering is injective, so the headers determine the figures. */
  lemma RenderInjective(a: nat, b: nat)
    ensures NatToString(a) == NatToString(b) ==> a == b
  {
    ParseRendered(a);
    ParseRendered(b);
  }

  // ---------------------------------------------------------------------
  // The handler

  /** The OpenAI client built at the top of the handler. */
  function Client(env: Env): (c: ClientConfig)
    ensures IsProd(env) ==> c == ClientConfig(None, env.openAiKey)
    ensures !IsProd(env) ==> c == ClientConfig(Some(LocalBaseUrl), Some(LocalApiKey))
  {
    ClientConfig(if IsProd(env) then None else Some(LocalBaseUrl),
                 if IsProd(env) then env.openAiKey else Some(LocalApiKey))
  }

  /** `x-forwarded-for` as it lands in a template literal: an absent header
      reads "null". */
  function IpText(ip: Option<string>): string {
    match ip
    case Some(s) => s
    case None => "null"
  }

  /** The two messages for an option, or None when it is neither
      "continue" nor "improve". */
  function Messages(body: Body): (r: Option<seq<Message>>)
    ensures r.Some? <==> body.option == "continue" || body.option == "improve"
    ensures r.Some? ==>
      |r.value| == 2 && r.value[0].role == "system" && r.value[1] == Message("user", body.prompt)
    ensures body.option == "continue" ==> r.value[0].content == ContinuePrompt
    ensures body.option == "improve" ==> r.value[0].content == ImprovePrompt
  {
    if body.option == "continue" then
      Some([Message("system", ContinuePrompt), Message("user", body.prompt)])
    else if body.option == "improve" then
      Some([Message("system", ImprovePrompt), Message("user", body.prompt)])
    else None
  }

  /** `POST(req)`: `ip` is the `x-forwarded-for` header, `limited` what the
      limiter would answer if consulted. */
  function Post(env: Env, ip: Option<string>, limited: LimitResult, body: Body): (o: Outcome)
    ensures o.limiterKey.Some? ==> o.limiterKey.value == LimiterKeyPrefix + IpText(ip)
    ensures o.response.TextResponse? ==> o.response.status == 400 || o.response.status == 429
    ensures o.response.ClientConstructionFailed? <==> IsProd(env) && env.openAiKey.None?
  {
    if Client(env).apiKey.None? then
      Outcome(ClientConstructionFailed, None)
    else if !Truthy(env.openAiKey) && IsProd(env) then
      Outcome(TextResponse(400, MissingKeyMessage, []), None)
    else
      var key := if IsProd(env) && Truthy(env.kvUrl) && Truthy(env.kvToken)
        then Some(LimiterKeyPrefix + IpText(ip)) else None;
      if key.Some? && !limited.success then
        Outcome(TextResponse(429, LimitMessage, [
          ("X-RateLimit-Limit", NatToString(limited.limit)),
          ("X-RateLimit-Remaining", NatToString(limited.remaining)),
          ("X-RateLimit-Reset", NatToString(limited.reset))]), key)
      else
        match Messages(body)
        case None => Outcome(NoMatchingPattern(body.option), key)
        case Some(msgs) =>
          var model := if env.nodeEnv == Some("development") then DevModel else ProdModel;
          Outcome(CompletionStream(CompletionRequest(Client(env), model, true, msgs)), key)
  }

  /** The value of the first header with this name. */
  function Header(headers: seq<(string, string)>, name: string): (r: Option<string>)
    ensures r.Some? <==> exists i :: 0 <= i < |headers| && headers[i].0 == name
    ensures r.Some? ==> exists i :: 0 <= i < |headers| && headers[i] == (name, r.value)
  {
    if |headers| == 0 then None
    else if headers[0].0 == name then Some(headers[0].1)
    else
      var r := Header(headers[1..], name);
      assert forall i :: 0 < i < |headers| ==> headers[i] == headers[1..][i - 1];
      r
  }

  // ---------------------------------------------------------------------
  // Properties

  /** In production an absent key stops the handler while it builds the
      client, before the key check, whatever the limiter and the body say. */
  lemma AbsentKeyFailsFirst(env: Env, ip: Option<string>, limited: LimitResult, body: Body)
    requires IsProd(env) && env.openAiKey.None?
    ensures Post(env, ip, limited, body) == Outcome(ClientConstructionFailed, None)
  {
  }

  /** In production an empty key gets the 400 before the limiter or the
      body are looked at. */
  lemma MissingKeyFirst(env: Env, ip: Option<string>, limited: LimitResult, body: Body)
    requires IsProd(env) && env.openAiKey == Some("")
    ensures Post(env, ip, limited, body) == Outcome(TextResponse(400, MissingKeyMessage, []), None)
  {
  }

  /** The limiter is consulted exactly in production with a key and both KV
      settings present, and then with the caller's IP in the key. */
  lemma LimiterConsultedIff(env: Env, ip: Option<string>, limited: LimitResult, body: Body)
    ensures var o := Post(env, ip, limited, body);
      && (o.limiterKey.Some? <==>
            IsProd(env) && Truthy(env.openAiKey) && Truthy(env.kvUrl) && Truthy(env.kvToken))
      && (o.limiterKey.Some? ==> o.limiterKey.value == LimiterKeyPrefix + IpText(ip))
  {
  }

  /** Outside production the client is always built, there is neither a
      400 nor a 429, and the client points at the local server with the
      placeholder key. */
  lemma NonProdNeverRefused(env: Env, ip: Option<string>, limited: LimitResult, body: Body)
    requires !IsProd(env)
    ensures var o := Post(env, ip, limited, body);
      && o.limiterKey.None?
      && !o.response.TextResponse?
      && !o.response.ClientConstructionFailed?
      && (o.response.CompletionStream? ==>
            o.response.request.client == ClientConfig(Some(LocalBaseUrl), Some(LocalApiKey)))
  {
  }

  /** A refusal by the limiter is a 429 whose three headers read back as
      the limiter's figures. */
  lemma RefusalCarriesFigures(env: Env, ip: Option<string>, limited: LimitResult, body: Body)
    requires IsProd(env) && Truthy(env.openAiKey) && Truthy(env.kvUrl) && Truthy(env.kvToken)
    requires !limited.success
    ensures var o := Post(env, ip, limited, body);
      && o.response.TextResponse? && o.response.status == 429 && o.response.body == LimitMessage
      && Header(o.response.headers, "X-RateLimit-Limit").Some?
      && ParseNat(Header(o.response.headers, "X-RateLimit-Limit").value) == Some(limited.limit)
      && Header(o.response.headers, "X-RateLimit-Remaining").Some?
      && ParseNat(Header(o.response.headers, "X-RateLimit-Remaining").value) == Some(limited.remaining)
      && Header(o.response.headers, "X-RateLimit-Reset").Some?
      && ParseNat(Header(o.response.headers, "X-RateLimit-Reset").value) == Some(limited.reset)
  {
    var l, m, t := NatToString(limited.limit), NatToString(limited.remaining), NatToString(limited.reset);
    var hs := [("X-RateLimit-Limit", l), ("X-RateLimit-Remaining", m), ("X-RateLimit-Reset", t)];
    assert Post(env, ip, limited, body).response == TextResponse(429, LimitMessage, hs);
    assert Header(hs, "X-RateLimit-Limit") == Some(l);
    assert Header(hs, "X-RateLimit-Remaining") == Some(m) by {
      assert hs[1..][0] == ("X-RateLimit-Remaining", m);
    }
    assert Header(hs, "X-RateLimit-Reset") == Some(t) by {
      assert hs[1..][1..][0] == ("X-RateLimit-Reset", t);
      assert Header(hs[1..], "X-RateLimit-Reset") == Header(hs[1..][1..], "X-RateLimit-Reset");
    }
    ParseRendered(limited.limit);
    ParseRendered(limited.remaining);
    ParseRendered(limited.reset);
  }

  /** A streamed completion carries the option's system prompt followed by
      the user's prompt, for one of the two options; the model is "llama2"
      only in development; in production the client uses the configured key
      on the default endpoint. That a request passing the gates gets one is
      `PassedGatesStream`. */
  lemma CompletionShape(env: Env, ip: Option<string>, limited: LimitResult, body: Body)
    ensures var o := Post(env, ip, limited, body);
      o.response.CompletionStream? ==>
        && (body.option == "continue" || body.option == "improve")
        && o.response.request.stream
        && o.response.request.messages == [
             Message("system", if body.option == "continue" then ContinuePrompt else ImprovePrompt),
             Message("user", body.prompt)]
        && (o.response.request.model == DevModel <==> env.nodeEnv == Some("development"))
        && (IsProd(env) ==> o.response.request.client == ClientConfig(None, env.openAiKey) && Truthy(env.openAiKey))
  {
  }

  /** A request with either option that gets past the key check and the
      limiter (outside production, or with a key and either no limiter
      configured or the limiter's consent) gets a streamed completion. */
  lemma PassedGatesStream(env: Env, ip: Option<string>, limited: LimitResult, body: Body)
    requires body.option == "continue" || body.option == "improve"
    requires !IsProd(env) || (Truthy(env.openAiKey) && (limited.success || !(Truthy(env.kvUrl) && Truthy(env.kvToken))))
    ensures Post(env, ip, limited, body).response.CompletionStream?
  {
  }

  /** The handler answers 429 exactly when it consulted the limiter and the
      limiter refused. */
  lemma RefusedIffLimited(env: Env, ip: Option<string>, limited: LimitResult, body: Body)
    ensures var o := Post(env, ip, limited, body);
      o.response.TextResponse? && o.response.status == 429 <==> o.limiterKey.Some? && !limited.success
  {
  }

  /** Any other option fails once the gates are passed. */
  lemma OnlyTwoOptions(env: Env, ip: Option<string>, limited: LimitResult, body: Body)
    requires body.option != "continue" && body.option != "improve"
    requires !IsProd(env) || Truthy(env.openAiKey)
    requires limited.success
    ensures Post(env, ip, limited, body).response == NoMatchingPattern(body.option)
  {
  }
}

=== FILE: horizontal_rule.dfy ===
/**
 The horizontal-rule input rule of
 `apps/web/app/_components/HorizontalRules.tsx`. Its pattern
 `^(?:---|—-|___\s|\*\*\*\s)$` is run here as a finite automaton over the
 text typed so far in a paragraph, and proved to accept exactly four
 shapes. `\s` is ECMAScript's whitespace class (WhiteSpace and
 LineTerminator code points), and without the `m` flag `$` matches only
 at the very end.
 */
module HorizontalRule {
  import opened Base

  const EmDash: char := '\U{2014}'

  /** ECMAScript's `\s`. */
  predicate IsJsWhitespace(c: char) {
    || c == '\t' || c == '\n' || c == '\U{000B}' || c == '\U{000C}' || c == '\r' || c == ' '
    || c == '\U{00A0}' || c == '\U{1680}' || ('\U{2000}' <= c <= '\U{200A}')
    || c == '\U{2028}' || c == '\U{2029}' || c == '\U{202F}' || c == '\U{205F}'
    || c == '\U{3000}' || c == '\U{FEFF}'
  }

  /** The four shapes the pattern names. */
  predicate IsRuleShape(s: string) {
    || s == "---"
    || s == [EmDash, '-']
    || (|s| == 4 && s[..3] == "___" && IsJsWhitespace(s[3]))
    || (|s| == 4 && s[..3] == "***" && IsJsWhitespace(s[3]))
  }

  /** Automaton states: how much of which alternative has been read. */
  datatype State =
    | Start
    | Dashes(n: nat)       // "-", "--", "---"
    | Em                   // "—"
    | EmThenDash           // "—-"
    | Underscores(n: nat)  // "_", "__", "___"
    | UnderscoresSpace     // "___" then whitespace
    | Stars(n: nat)        // "*", "**", "***"
    | StarsSpace           // "***" then whitespace
    | Dead

  function Step(q: State, c: char): State {
    match q
    case Start =>
      if c == '-' then Dashes(1)
      else if c == EmDash then Em
      else if c == '_' then Underscores(1)
      else if c == '*' then Stars(1)
      else Dead
    case Dashes(n) => if n < 3 && c == '-' then Dashes(n + 1) else Dead
    case Em => if c == '-' then EmThenDash else Dead
    case Underscores(n) =>
      if n < 3 && c == '_' then Underscores(n + 1)
      else if n == 3 && IsJsWhitespace(c) then UnderscoresSpace
      else Dead
    case Stars(n) =>
      if n < 3 && c == '*' then Stars(n + 1)
      else if n == 3 && IsJsWhitespace(c) then StarsSpace
      else Dead
    case _ => Dead
  }

  predicate Accepting(q: State) {
    q == Dashes(3) || q == EmThenDash || q == UnderscoresSpace || q == StarsSpace
  }

  function Run(q: State, s: string): State
    decreases |s|
  {
    if |s| == 0 then q else Run(Step(q, s[0]), s[1..])
  }

  /** The input rule's `find` test. */
  predicate Matches(s: string) {
    Accepting(Run(Start, s))
  }

  lemma {:induction false} RunDead(s: string)
    ensures Run(Dead, s) == Dead
    decreases |s|
  {
    if |s| > 0 {
      RunDead(s[1..]);
    }
  }

  lemma {:induction false} RunConcat(q: State, a: string, b: string)
    ensures Run(q, a + b) == Run(Run(q, a), b)
    decreases |a|
  {
    if |a| == 0 {
      assert a + b == b;
    } else {
      assert (a + b)[0] == a[0] && (a + b)[1..] == a[1..] + b;
      RunConcat(Step(q, a[0]), a[1..], b);
    }
  }

  /** Four steps of the automaton, spelled out. */
  lemma RunFour(s: string)
    requires |s| >= 4
    ensures Run(Start, s[..4]) == Step(Step(Step(Step(Start, s[0]), s[1]), s[2]), s[3])
  {
    var p := s[..4];
    var q1 := Step(Start, s[0]);
    var q2 := Step(q1, s[1]);
    var q3 := Step(q2, s[2]);
    assert Run(Start, p) == Run(q1, p[1..]);
    assert Run(q1, p[1..]) == Run(q2, p[2..]) by { assert p[1..][0] == s[1] && p[1..][1..] == p[2..]; }
    assert Run(q2, p[2..]) == Run(q3, p[3..]) by { assert p[2..][0] == s[2] && p[2..][1..] == p[3..]; }
    assert Run(q3, p[3..]) == Run(Step(q3, s[3]), []) by { assert p[3..][0] == s[3] && p[3..][1..] == []; }
  }

  /** Any text of five or more characters is rejected. */
  lemma LongTextDead(s: string)
    requires |s| >= 5
    ensures Run(Start, s) == Dead
  {
    RunFour(s);
    assert s == s[..4] + s[4..];
    RunConcat(Start, s[..4], s[4..]);
    var q := Run(Start, s[..4]);
    assert Step(q, s[4]) == Dead;
    RunDead(s[4..][1..]);
  }

  /** The automaton accepts exactly the four shapes: "---" and "—-" with
      nothing after them, "___" and "***" followed by exactly one
      whitespace character. */
  lemma MatchesIffShape(s: string)
    ensures Matches(s) <==> IsRuleShape(s)
  {
    if |s| >= 5 {
      LongTextDead(s);
    } else if |s| == 4 {
      RunFour(s);
      assert s[..4] == s;
      assert s[..3] == [s[0], s[1], s[2]];
    } else if |s| == 3 {
      var q1 := Step(Start, s[0]);
      var q2 := Step(q1, s[1]);
      assert Run(Start, s) == Run(q1, s[1..]);
      assert Run(q1, s[1..]) == Run(q2, s[2..]) by { assert s[1..][0] == s[1] && s[1..][1..] == s[2..]; }
      assert Run(q2, s[2..]) == Run(Step(q2, s[2]), []) by { assert s[2..][0] == s[2] && s[2..][1..] == []; }
      assert s == [s[0], s[1], s[2]];
    } else if |s| == 2 {
      var q1 := Step(Start, s[0]);
      assert Run(Start, s) == Run(q1, s[1..]);
      assert Run(q1, s[1..]) == Run(Step(q1, s[1]), []) by { assert s[1..][0] == s[1] && s[1..][1..] == []; }
      assert s == [s[0], s[1]];
    } else if |s| == 1 {
      assert Run(Start, s) == Run(Step(Start, s[0]), []) by { assert s[1..] == []; }
    }
  }

  /** Blocks around the rule: paragraphs of text and horizontal rules with
      their node attributes. */
  datatype Block = Paragraph(text: string) | Rule(attrs: map<string, string>)

  /** The rule at work when `typed` is entered at `cursor` in paragraph
      `i`: the pattern is tried on the paragraph's text before the cursor
      plus the typed text; on a match, a rule with empty attributes is
      inserted before the paragraph and the matched text is deleted, so the
      paragraph keeps only what followed the cursor. None is an ordinary
      insertion, which the rule leaves to the editor. */
  function ApplyInputRule(blocks: seq<Block>, i: nat, cursor: nat, typed: string): (r: Option<seq<Block>>)
    requires i < |blocks| && blocks[i].Paragraph? && cursor <= |blocks[i].text|
    ensures r.Some? <==> IsRuleShape(blocks[i].text[..cursor] + typed)
    ensures r.Some? ==>
      && |r.value| == |blocks| + 1 && r.value[i] == Rule(map[])
      && r.value[i + 1] == Paragraph(blocks[i].text[cursor..])
      && r.value[..i] == blocks[..i] && r.value[i + 2..] == blocks[i + 1..]
  {
    var candidate := blocks[i].text[..cursor] + typed;
    MatchesIffShape(candidate);
    if Matches(candidate) then
      Some(blocks[..i] + [Rule(map[]), Paragraph(blocks[i].text[cursor..])] + blocks[i + 1..])
    else None
  }

  /** Strings the anchors reject. */
  lemma AnchoredExamples()
    ensures Matches("---") && Matches([EmDash, '-']) && Matches("___ ") && Matches("***\n")
    ensures !Matches("----") && !Matches("a---") && !Matches("___  ") && !Matches("___") && !Matches("---\n")
  {
    MatchesIffShape("---");
    MatchesIffShape([EmDash, '-']);
    MatchesIffShape("___ ");
    MatchesIffShape("***\n");
    MatchesIffShape("----");
    MatchesIffShape("a---");
    MatchesIffShape("___  ");
    MatchesIffShape("___");
    MatchesIffShape("---\n");
  }
}

=== FILE: node_selector.dfy ===
/**
 The block-type menu of the bubble toolbar
 (`apps/web/app/_components/selectors/node-selector.tsx`): a fixed list of
 items, each with a name, a command and an "is active" test against the
 editor; the trigger shows the name of the last active item, or
 "Multiple" when none is active. The editor's answers to `isActive` are
 abstracted to the set of active node types and heading levels.
 */
module NodeSelector {
  import opened Base

  /** What `editor.isActive(...)` reports for the current selection:
      `isActive(name)` is `name in nodes`, and
      `isActive("heading", {level})` is `level in headingLevels`. */
  datatype ActiveState = ActiveState(nodes: set<string>, headingLevels: set<int>)

  /** The editor commands the items run. */
  datatype Step =
    | ToggleParagraph
    | ToggleHeading(level: int)
    | ToggleTaskList
    | ToggleBulletList
    | ToggleOrderedList
    | ToggleBlockquote
    | ToggleCodeBlock

  datatype Kind = TextKind | HeadingKind(level: int) | TodoKind | BulletKind | NumberedKind | QuoteKind | CodeKind

  datatype Item = Item(name: string, kind: Kind)

  /** The menu, in order. */
  const Items: seq<Item> := [
    Item("Text", TextKind),
    Item("Heading 1", HeadingKind(1)),
    Item("Heading 2", HeadingKind(2)),
    Item("Heading 3", HeadingKind(3)),
    Item("To-do List", TodoKind),
    Item("Bullet List", BulletKind),
    Item("Numbered List", NumberedKind),
    Item("Quote", QuoteKind),
    Item("Code", CodeKind)
  ]

  /** The name shown when no item is active. */
  const MultipleName := "Multiple"

  /** Each item's `isActive`. */
  predicate IsActive(k: Kind, a: ActiveState) {
    match k
    case TextKind => "paragraph" in a.nodes && "bulletList" !in a.nodes && "orderedList" !in a.nodes
    case HeadingKind(level) => level in a.headingLevels
    case TodoKind => "taskItem" in a.nodes
    case BulletKind => "bulletList" in a.nodes
    case NumberedKind => "orderedList" in a.nodes
    case QuoteKind => "blockquote" in a.nodes
    case CodeKind => "codeBlock" in a.nodes
  }

  function ItemActive(a: ActiveState): Item -> bool {
    (it: Item) => IsActive(it.kind, a)
  }

  /** Each item's command, as the chain of editor steps it runs. */
  function Command(k: Kind): seq<Step> {
    match k
    case TextKind => [ToggleParagraph]
    case HeadingKind(level) => [ToggleHeading(level)]
    case TodoKind => [ToggleTaskList]
    case BulletKind => [ToggleBulletList]
    case NumberedKind => [ToggleOrderedList]
    case QuoteKind => [ToggleParagraph, ToggleBlockquote]
    case CodeKind => [ToggleCodeBlock]
  }

  /** `items.filter(isActive).pop() ?? {name: "Multiple"}`: the name of the
      last active item in menu order, or "Multiple". */
  function ActiveName(a: ActiveState): (name: string)
    ensures name == MultipleName <==> forall i :: 0 <= i < |Items| ==> !IsActive(Items[i].kind, a)
    ensures name != MultipleName ==>
      exists k :: (0 <= k < |Items| && Items[k].name == name && IsActive(Items[k].kind, a)
        && forall j :: k < j < |Items| ==> !IsActive(Items[j].kind, a))
  {
    match FindLast(Items, ItemActive(a))
    case None => MultipleName
    case Some(k) =>
      assert Items[k].name != MultipleName;
      Items[k].name
  }

  /** Which menu rows show the check mark: those named like the trigger. */
  function CheckMarks(a: ActiveState): (marks: seq<bool>)
    ensures |marks| == |Items|
    ensures forall i :: 0 <= i < |Items| ==> (marks[i] <==> Items[i].name == ActiveName(a))
  {
    seq(|Items|, i requires 0 <= i < |Items| => Items[i].name == ActiveName(a))
  }

  /** Selecting a row runs its command and closes the menu. The result is
      the steps run and the menu's new open state. */
  function Select(i: nat, open: bool): (r: (seq<Step>, bool))
    requires i < |Items|
    ensures !r.1
    ensures r.0 == Command(Items[i].kind) && |r.0| > 0
  {
    (Command(Items[i].kind), false)
  }

  /** Clicking the trigger flips the menu. */
  function ClickTrigger(open: bool): (r: bool)
    ensures r != open
  {
    !open
  }

  /** Item names are pairwise different. */
  lemma NamesDistinct()
    ensures forall i, j :: 0 <= i < j < |Items| ==> Items[i].name != Items[j].name
  {
  }

  /** The check mark is on exactly the active item: one row when some item
      is active, none when the trigger reads "Multiple". */
  lemma CheckMarkExactlyActive(a: ActiveState)
    ensures ActiveName(a) != MultipleName ==>
      exists k :: 0 <= k < |Items| && CheckMarks(a)[k] && forall j :: 0 <= j < |Items| && j != k ==> !CheckMarks(a)[j]
    ensures ActiveName(a) == MultipleName ==> forall j :: 0 <= j < |Items| ==> !CheckMarks(a)[j]
  {
    NamesDistinct();
    if ActiveName(a) != MultipleName {
      var k :| 0 <= k < |Items| && Items[k].name == ActiveName(a);
      assert CheckMarks(a)[k];
    }
  }

  /** Which items are active when "Text" is the only one. */
  predicate OnlyParagraph(a: ActiveState) {
    && "paragraph" in a.nodes && "bulletList" !in a.nodes && "orderedList" !in a.nodes
    && 1 !in a.headingLevels && 2 !in a.headingLevels && 3 !in a.headingLevels
    && "taskItem" !in a.nodes && "blockquote" !in a.nodes && "codeBlock" !in a.nodes
  }

  /** "Text" shown means the first item is the last active one. */
  lemma TextShownFirstLastActive(a: ActiveState)
    requires ActiveName(a) == "Text"
    ensures IsActive(Items[0].kind, a) && forall j :: 0 < j < |Items| ==> !IsActive(Items[j].kind, a)
  {
    var k :| 0 <= k < |Items| && Items[k].name == "Text" && IsActive(Items[k].kind, a)
      && forall j :: k < j < |Items| ==> !IsActive(Items[j].kind, a);
    NamesDistinct();
    assert Items[0].name == "Text";
  }

  lemma TextShownOnlyParagraph(a: ActiveState)
    requires ActiveName(a) == "Text"
    ensures OnlyParagraph(a)
  {
    TextShownFirstLastActive(a);
    assert !IsActive(Items[1].kind, a) && !IsActive(Items[2].kind, a) && !IsActive(Items[3].kind, a);
    assert !IsActive(Items[4].kind, a) && !IsActive(Items[7].kind, a) && !IsActive(Items[8].kind, a);
  }

  lemma OnlyParagraphShowsText(a: ActiveState)
    requires OnlyParagraph(a)
    ensures ActiveName(a) == "Text"
  {
    assert IsActive(Items[0].kind, a);
    assert forall j :: 0 < j < |Items| ==> !IsActive(Items[j].kind, a);
    var k :| 0 <= k < |Items| && Items[k].name == ActiveName(a) && IsActive(Items[k].kind, a)
      && forall j :: k < j < |Items| ==> !IsActive(Items[j].kind, a);
    assert k == 0;
  }

  /** "Text" is shown exactly when a paragraph is active outside both list
      kinds and none of the items after it (headings 1-3, to-do list,
      quote, code) is active. */
  lemma TextShownIff(a: ActiveState)
    ensures ActiveName(a) == "Text" <==>
      && "paragraph" in a.nodes && "bulletList" !in a.nodes && "orderedList" !in a.nodes
      && 1 !in a.headingLevels && 2 !in a.headingLevels && 3 !in a.headingLevels
      && "taskItem" !in a.nodes && "blockquote" !in a.nodes && "codeBlock" !in a.nodes
  {
    if ActiveName(a) == "Text" {
      TextShownOnlyParagraph(a);
    }
    if OnlyParagraph(a) {
      OnlyParagraphShowsText(a);
    }
  }

  /** Because the last match wins, a paragraph inside a quote shows
      "Quote" and a paragraph inside a code block shows "Code". */
  lemma LastMatchWins(a: ActiveState)
    requires "paragraph" in a.nodes
    ensures "codeBlock" in a.nodes ==> ActiveName(a) == "Code"
    ensures "blockquote" in a.nodes && "codeBlock" !in a.nodes ==> ActiveName(a) == "Quote"
  {
    if "codeBlock" in a.nodes {
      assert IsActive(Items[8].kind, a);
    } else if "blockquote" in a.nodes {
      assert IsActive(Items[7].kind, a);
    }
  }

  /** The heading items are told apart by level alone: with one heading
      level active and no node type, the level picks the name, and a level
      outside 1-3 shows "Multiple". */
  lemma HeadingByLevel(level: int)
    ensures var a := ActiveState({}, {level});
      ActiveName(a) == (if level == 1 then "Heading 1" else if level == 2 then "Heading 2"
                        else if level == 3 then "Heading 3" else MultipleName)
  {
    var a := ActiveState({}, {level});
    if 1 <= level <= 3 {
      assert IsActive(Items[level].kind, a);
      assert forall j :: 0 <= j < |Items| && j != level ==> !IsActive(Items[j].kind, a);
    } else {
      assert forall j :: 0 <= j < |Items| ==> !IsActive(Items[j].kind, a);
    }
  }
}
